=== FILE: README.md ===
# LLM gateway and orchestrator — a Dafny model

This project models the two layers of a small LLM gateway.

- **The gateway handler** (`api/ai.ts`): it accepts an OpenAI-style chat request, picks the upstream provider
  from a tag (`provider || 'GROQ'`, upper-cased), resolves an API key (request key, else a random key from
  the `GROQ_API_KEYS` pool for GROQ, else `<TAG>_API_KEY`), refuses with a 500 configuration error when
  no key is found (except for `LOCAL` / `LOCAL (OLLAMA)`), shapes the payload and headers per provider
  (OpenAI-compatible, Anthropic Messages, Gemini `generateContent`), calls the provider once, passes a
  non-OK status through, relays a stream, and normalises Gemini and Anthropic answers to the
  `choices[0].message.content` shape.
- **The orchestrator** (`services/aiOrchestrator.ts`): the built-in `DEFAULT_MODELS`, `getBestModel`
  (least priority among the enabled models, earliest on ties, emergency default when none is enabled),
  `callAI` (the failover walk over the priority-sorted candidates, each id tried once, the first success wins,
  otherwise "All AI Models failed to respond."), `executeCall` (one canonical request to the gateway,
  answer read as `choices[0].message.content || ""`), and `callAIStream` (a single call to the best model
  whose `data: ` lines are accumulated until `[DONE]`, reporting every running total to `onChunk`).

Everything is pure. The network (`fetch`), `Math.random` and JavaScript's string conversion are
parameters (`fetch`, `pick: nat`, `show`). `JSON.parse` is a parameter (`parse`) only for stream lines;
the handler's `req.json()` is represented by the already parsed `Request.body` (absent when parsing
fails), and the upstream's `response.json()` by the `parsed` field of an `Upstream` reply. The
environment is a `map<string, string>`. JavaScript behaviour that matters is spelt out:

- truthiness and `x || default`;
- optional chaining, where a `null` body still throws on the first plain `.`;
- `JSON.parse` keeping the last duplicate key;
- `String.prototype.trim` with the ECMAScript white-space set;
- `split`;
- the stable `Array.prototype.sort`.

Modules follow the program: `Basics`, `Text` and `Json` hold the JavaScript primitives. `Providers`,
`Credentials`, `Wire` and `Gateway` model `api/ai.ts`. `Selection`, `Failover` and `Streaming` model
`services/aiOrchestrator.ts`.

Two behaviours of the code differ from what a reader of its comments might expect, and the model follows the code:

- an unrecognised provider tag (COHERE, which the comment at api/ai.ts:18 says needs a different payload,
  `LOCAL (OLLAMA)`, anything else) is not refused; it goes to the Groq endpoint with the
  OpenAI-compatible payload (`Wire.UnknownTagFallsBackToGroq`);
- for Gemini the roles are mapped before the `system` filter runs, so system messages stay in `contents`
  under the role `model` (`Wire.GeminiKeepsSystemMessages`), and `systemInstruction` is the
  first system message, whereas Anthropic's `system` field is the last one.

The streaming loop splits each decoded chunk on its own. A `data:` line that arrives cut across two
reads is therefore seen as two fragments (`Streaming.ChunkBoundaryCutsLine`), and its delta is lost
unless a fragment happens to parse.

## Model

| member | source | states |
|---|---|---|
| Text.Trim | api/ai.ts:50 | a trimmed key is the slice of the input that starts after its leading ECMAScript white space and stops before its trailing white space, and neither of its ends is white space |
| Text.TrimIdempotent | api/ai.ts:50 | trimming an already trimmed key changes nothing, so pool keys are stable under `trim` |
| Text.TrimEmpty | api/ai.ts:50 | a piece trims to the empty string exactly when it is all white space, so blank pool entries are the ones `filter(Boolean)` drops |
| Text.Split | api/ai.ts:50 | `split(",")` yields at least one part, no part contains the separator, and joining the parts gives the input back |
| Text.SplitJoin | api/ai.ts:50 | splitting a join of separator-free parts recovers exactly those parts |
| Text.ToUpper | api/ai.ts:40 | upper-casing keeps the length, turns every lower-case ASCII letter into its upper-case letter (code point minus 32), and keeps every other character |
| Text.ToUpperIdempotent | services/aiOrchestrator.ts:129 | the orchestrator's upper-casing followed by the gateway's gives the same tag as one upper-casing |
| Json.Member | services/aiOrchestrator.ts:147 | a parsed object's property is missing exactly when no field has that name, and otherwise is the value of the last field with that name |
| Json.OrEmpty | api/ai.ts:180 | `value \|\| ""` is never null, is truthy or the empty string, keeps every truthy value and string, and is truthy only when it is the found value |
| Json.ExtractOrEmpty | services/aiOrchestrator.ts:148 | reading `choices?.[0]?.message?.content \|\| ""` fails exactly when the body is `null`, and otherwise yields the found truthy or string content, else `""` |
| Providers.Parse | api/ai.ts:82-122 | every upper-cased tag selects exactly one branch; the tag is kept, and only tags outside the known set fall into `Other` |
| Providers.ParseName | api/ai.ts:6-19 | each provider's tag selects that provider again |
| Providers.Endpoint | api/ai.ts:68-96 | providers in the static table are posted to their table URL, and every tag outside the twelve known tags keeps the initial Groq URL |
| Credentials.KeyPool | api/ai.ts:48-50 | every pool key is non-empty, trimmed and comma-free, and a string is in the pool exactly when it is a non-empty trimmed comma-separated piece of the variable |
| Credentials.ResolveKey | api/ai.ts:43-57 | a truthy request key wins; otherwise GROQ gets a key exactly when its pool is non-empty and that key is a pool member, and every other tag reads `<TAG>_API_KEY` |
| Credentials.EveryPoolKeyReachable | api/ai.ts:51 | every key of the GROQ pool is chosen for some random draw |
| Credentials.Trims | api/ai.ts:50 | `map(k => k.trim())` keeps the number of parts and trims each one in place |
| Credentials.NonEmpty | api/ai.ts:50 | `filter(Boolean)` keeps exactly the non-empty strings |
| Credentials.NonEmptyAppend | api/ai.ts:50 | the filter keeps order: the strings kept from a concatenation are those kept from each part, in turn |
| Credentials.GroqPool | api/ai.ts:48-50 | with `GROQ_API_KEYS` unset the pool is empty; otherwise it holds exactly the non-empty trimmed comma-separated pieces of the variable, each free of commas and white-space ends |
| Wire.TemperatureOr | api/ai.ts:72 | `temperature \|\| 0.7`: a missing or zero temperature becomes 0.7, any other is kept |
| Wire.MaxTokensOr | api/ai.ts:73 | `max_tokens \|\| fallback`: a missing or zero limit becomes the fallback (4096, or 1024 for Anthropic at line 116), any other is kept |
| Wire.NonSystem | api/ai.ts:105-111 | the Anthropic message list contains no system message, and a message is kept exactly when it is not a system message |
| Wire.NonSystemAppend | api/ai.ts:105-111 | the filter keeps order: the messages kept from a concatenation are those kept from each part, in turn |
| Wire.NonSystemOne | api/ai.ts:106-110 | a single message is kept exactly when its role is not `system` |
| Wire.LastSystemContent | api/ai.ts:104-111 | the promoted system prompt is absent exactly when there is no system message, and is otherwise the content of the last one |
| Wire.FirstSystemContent | api/ai.ts:132 | the Gemini system instruction is absent exactly when there is no system message, and is otherwise the content of the first one |
| Wire.SplitSystem | api/ai.ts:104-111 | the single filtering pass yields the non-system messages and the last system prompt together |
| Wire.GeminiContents | api/ai.ts:126-129 | the Gemini contents have one entry per message, with the same text, and role `user` for users and `model` for everything else |
| Wire.ToGeminiContents | api/ai.ts:126-128 | the mapping gives one entry per message, in order, with role `user` for users and `model` for every other role, and the message content as text |
| Wire.DropSystemContents | api/ai.ts:129 | the `role !== 'system'` filter keeps exactly the entries whose role is not `system` |
| Wire.DropSystemContentsAppend | api/ai.ts:129 | the filter keeps order: the entries kept from a concatenation are those kept from each part, in turn |
| Wire.NoSystemRoleSurvivesMapping | api/ai.ts:126-129 | the `role !== 'system'` filter after the mapping removes nothing |
| Wire.Headers | api/ai.ts:77-147 | Content-Type is always set; Authorization is `Bearer <key>` exactly when the tag is neither GEMINI nor ANTHROPIC and the key is truthy; the OpenRouter and Anthropic headers appear only for those tags; no other header is set |
| Wire.Shape | api/ai.ts:69-142 | the payload is the Anthropic one exactly for Anthropic and the Gemini one exactly for Gemini; Anthropic messages hold no system message, the OpenAI-compatible payload forwards the messages as given, and Gemini has one content entry per message |
| Wire.ToWire | api/ai.ts:67-147 | the payload is Anthropic-shaped exactly for ANTHROPIC, Gemini-shaped exactly for GEMINI and OpenAI-compatible otherwise; table providers use their URL and unknown tags the Groq URL |
| Wire.Normalize | api/ai.ts:178-196 | other providers' JSON is passed through unchanged; Gemini and Anthropic answers become the canonical shape around their text or `""`; only a `null` body from those two fails |
| Wire.AnthropicShape | api/ai.ts:97-121 | the Anthropic call uses the messages URL, the model (default claude-3-opus-20240229), the non-system messages in order, the last system message's content, sent only when it is non-empty, max tokens defaulting to 1024 and `!!stream`, and sends `x-api-key` and `anthropic-version` 2023-06-01 without Authorization |
| Wire.GeminiShape | api/ai.ts:122-142 | the Gemini URL embeds the model (default gemini-1.5-flash) and the key as a query parameter; contents mirror the messages; max output tokens default to 4096; no Authorization header |
| Wire.GeminiKeepsSystemMessages | api/ai.ts:126-141 | a system message is still sent in Gemini `contents`, with role `model`, and also sets the system instruction |
| Wire.DefaultShape | api/ai.ts:68-75 | every tag but ANTHROPIC and GEMINI sends model (default llama3-8b-8192), messages, temperature (default 0.7), max tokens (default 4096) and `!!stream` |
| Wire.UnknownTagFallsBackToGroq | api/ai.ts:68-96 | an unrecognised tag is posted to the Groq endpoint with the OpenAI-compatible payload |
| Wire.HuggingFaceEndpoint | api/ai.ts:89-91 | the HuggingFace URL embeds the model as interpolated, so a missing model prints `undefined` |
| Wire.CanonicalContentRoundTrip | api/ai.ts:179-190 | the orchestrator's `choices[0].message.content \|\| ""` read of a normalised answer gives back the content that was wrapped |
| Gateway.TargetProvider | api/ai.ts:40 | the tag is GROQ when the provider is missing or empty, otherwise the provider upper-cased with its length kept |
| Gateway.Respond | api/ai.ts:156-203 | a `fetch` throw becomes a 500 internal error; a non-OK status is passed through with `<TAG> API Error` and the text; a stream is relayed with event-stream headers; otherwise a 2xx body that fails to parse, or a `null` Gemini or Anthropic body, is a 500 internal error, and every other body is answered 200 with its normalised form, which is the body itself for providers other than Gemini and Anthropic |
| Gateway.Handle | api/ai.ts:21-204 | at most one upstream call; a non-POST is a 405 and an unparseable body a 400 on which the handler sets no header, both without any call; a call is made exactly when the request is a POST with a body and a key is present or optional; that call is the request shaped for the upper-cased tag and the resolved key, and the answer is the translation of its reply, so a failed upstream status is passed through |
| Gateway.StreamIsRelayed | api/ai.ts:164-174 | a streaming request with a usable key makes one call, and a 2xx reply is answered 200 with the event-stream headers and the provider's stream relayed unchanged |
| Gateway.MissingKeyIsConfigurationError | api/ai.ts:59-65 | with no key for a provider that needs one, nothing is called and the answer is a 500 configuration error naming the provider |
| Gateway.MissingKeyMessageNamesProvider | api/ai.ts:61 | the configuration error message ends with the provider tag followed by a full stop |
| Gateway.LocalProceedsWithoutKey | api/ai.ts:59-88 | LOCAL with no key anywhere is called at the localhost endpoint without an Authorization header |
| Gateway.OpenAIWithoutKeyIsRefused | api/ai.ts:53-65 | OPENAI with no request key and no `OPENAI_API_KEY` makes no call and answers 500 |
| Gateway.BearerExactlyForStandardProviders | api/ai.ts:144-147 | the call carries `Authorization: Bearer <key>` exactly for tags other than GEMINI and ANTHROPIC that have a truthy key |
| Gateway.NormalizedAnswerIsCanonical | api/ai.ts:178-191 | a normalised Gemini or Anthropic answer is a 200 whose `choices[0].message.content` is the provider's text or `""` |
| Selection.Enabled | services/aiOrchestrator.ts:87 | the filtered list holds exactly the enabled models |
| Selection.EnabledAppend | services/aiOrchestrator.ts:87 | the filter keeps configuration order: the enabled models of a concatenation are those of each part, in turn |
| Selection.EnabledOne | services/aiOrchestrator.ts:87 | a single model is kept exactly when it is enabled |
| Selection.SortByPriority | services/aiOrchestrator.ts:95 | the sort yields a priority-ordered permutation of its input |
| Selection.SortIsStable | services/aiOrchestrator.ts:95 | the sort is stable: the models of each priority keep their input order |
| Selection.Candidates | services/aiOrchestrator.ts:103-107 | the candidates are never empty: a priority-ordered permutation of the enabled models, or the emergency default when none is enabled |
| Selection.CandidatesAreStable | services/aiOrchestrator.ts:103 | enabled models of equal priority are tried in configuration order |
| Selection.GetBestModel | services/aiOrchestrator.ts:85-96 | the best model is the emergency default when none is enabled, otherwise an enabled model of least priority that comes first among the enabled models of that priority |
| Selection.BestModelHeadsCandidates | services/aiOrchestrator.ts:85-107 | the model used for streaming is the first model `callAI` tries |
| Selection.BestModelIgnoresGlobalSwitch | services/aiOrchestrator.ts:152-157 | selection for streaming does not depend on the global switch |
| Failover.CallRequest | services/aiOrchestrator.ts:128-134 | the orchestrator posts the upper-cased provider, model id, messages and temperature, and the model's key only when it is truthy |
| Failover.ExecuteCall | services/aiOrchestrator.ts:126-149 | a call succeeds exactly on an OK status with a non-null JSON body; a non-OK status is an API error carrying status and text; a success is the found content when that is truthy or a string, and otherwise `""` |
| Failover.GatewayTag | services/aiOrchestrator.ts:129 | the gateway routes an orchestrator call by the model's provider upper-cased, or GROQ when that is empty |
| Failover.Dedup | services/aiOrchestrator.ts:109-111 | the models the loop can reach have pairwise distinct ids, all come from the candidates, and skip ids already tried |
| Failover.DedupAppend | services/aiOrchestrator.ts:109-111 | the skip keeps candidate order and first occurrences: from a concatenation, the first part's survivors come first, then the second part's models whose ids neither part before them nor the tried set holds |
| Failover.DedupOne | services/aiOrchestrator.ts:110-111 | a single candidate is tried exactly when its id has not been tried yet |
| Failover.DedupSorted | services/aiOrchestrator.ts:103-111 | skipping repeated ids keeps a priority-ordered list in priority order |
| Failover.DedupKeepsIds | services/aiOrchestrator.ts:109-111 | skipping repeated ids loses no id: every candidate id not yet tried is reached |
| Failover.LoopFirstSuccess | services/aiOrchestrator.ts:109-123 | the loop tries the deduplicated candidates in order, every try but the last failed, a success returns the last try's answer, and a failure means every candidate failed |
| Failover.CallAI | services/aiOrchestrator.ts:98-124 | when disabled no model is tried and the error is "globally disabled"; otherwise at least one model is tried and the run is a first-success walk over the deduplicated candidates |
| Failover.Loop | services/aiOrchestrator.ts:109-123 | the loop either returns an answer or fails with "All AI Models failed to respond.", never another error |
| Failover.TraceFollowsPriority | services/aiOrchestrator.ts:103-123 | `callAI` tries models in non-decreasing priority |
| Failover.TraceIdsDistinct | services/aiOrchestrator.ts:102-111 | no model id is called twice within one `callAI` |
| Failover.ExhaustionTriesEveryIdOnce | services/aiOrchestrator.ts:109-123 | when every candidate fails, each candidate id was tried exactly once and the error thrown is "All AI Models failed to respond." |
| Failover.SecondPrioritySucceeds | services/aiOrchestrator.ts:103-121 | with three enabled models of priorities 1, 2 and 3, configured in any order, the first two with distinct ids, where the first fails and the second answers, exactly those two are tried, in that order, and the second's answer is returned |
| Failover.CandidatesOfThree | services/aiOrchestrator.ts:87-107 | three enabled models of distinct priorities, configured in any order, become the candidates in priority order |
| Streaming.StreamRequest | services/aiOrchestrator.ts:159-168 | the streaming request carries the upper-cased provider, model id, messages and `stream: true`, and no key or temperature |
| Streaming.ChunkLines | services/aiOrchestrator.ts:177-183 | the loop sees at least one line per chunk and no line contains a newline |
| Streaming.ChunkLinesOne | services/aiOrchestrator.ts:180-183 | the lines of one chunk are its `split('\n')` pieces |
| Streaming.ChunkLinesAppend | services/aiOrchestrator.ts:177-183 | chunks are split one after another: the lines of a concatenation of chunks are those of each part, in turn |
| Streaming.OneChunkLines | services/aiOrchestrator.ts:180-183 | a chunk carrying whole lines is seen as exactly those lines |
| Streaming.ChunkBoundaryCutsLine | services/aiOrchestrator.ts:180-183 | a line cut by a chunk boundary is seen as two separate lines |
| Streaming.Classify | services/aiOrchestrator.ts:184-194 | only `data: ` lines matter; a trimmed `[DONE]` payload ends the stream, exactly; any other payload that fails to parse is ignored; one that parses to a non-null value with a truthy `choices[0].delta.content` appends that string, or the string conversion of a non-string, and every other payload is ignored |
| Streaming.RunningTotalsGrow | services/aiOrchestrator.ts:190-193 | every reported text extends the previous one by exactly one delta, and the last report is the whole text |
| Streaming.ReadLines | services/aiOrchestrator.ts:175-198 | the loop returns the concatenation of the deltas before the first `[DONE]` and reports the running total after each of them |
| Streaming.DoneStopsTheStream | services/aiOrchestrator.ts:186 | lines after the first `[DONE]` never change the text |
| Streaming.StreamFrom | services/aiOrchestrator.ts:159-198 | one request with `stream: true`; a throw, a non-OK status ("Stream Error") or a missing body ("No body") yields no text and no reports; otherwise the text is the concatenated deltas before `[DONE]`, the reports are their running totals, and the last report equals the text |
| Streaming.StreamFailureMessages | services/aiOrchestrator.ts:159-171 | a failed stream reports the `fetch` exception's own message, "Stream Error" for a non-OK status and "No body" for a missing body |
| Streaming.CallAIStream | services/aiOrchestrator.ts:152-198 | streaming uses the model `getBestModel` picks, whatever the global switch, and does not fail over to another model |

## Left out

- Configuration loading and saving (`loadConfig`, `saveConfig`, `getModels`, `getConfig`, the `isInitialized` reload, Firebase and local storage). They are storage I/O. The configuration is a parameter of every orchestrator operation.
- Console logging, including the warning when every model is disabled. Logging has no effect on results.
- The byte level of streaming: the reader loop and `TextDecoder`. The body is modelled as the sequence of decoded text chunks.
- JSON text parsing and serialisation. Parsed bodies are `Json` values or a parse error. `JSON.parse` on stream lines is the `parse` parameter.
- JavaScript's string conversion of a non-string truthy delta. It is the `show` parameter.
- Unicode upper-casing. `toUpperCase` is modelled on ASCII letters only; other characters are kept.
- Request fields of an unexpected JSON type (for example a string `temperature` or a missing `messages`). The request is a typed `ChatRequest`. Temperatures are `real`, not IEEE doubles.
- Reading a property of a string or number (such as `"abc"[0]`). It is modelled as a missing property.
- Fields that the modelled code never consults: `retryCount`, `tasks`, `defaultModelId`, the models' `maxTokens`, `isFallback`, `jsonMode` and `taskType`.
- The `Response` constructor rejecting an out-of-range upstream status.
- `response.text()` or the relayed stream throwing. Upstream text is a value.
- The `config` export (`runtime: 'edge'`). It is deployment metadata.
- The `Content-Type: text/plain;charset=UTF-8` header that the `Response` constructor adds to the 400 answer, whose body is a string. It is platform behaviour, not the handler's; the model's 400 carries only the headers the handler sets, which are none.
- A request body that parses to `null` or to a primitive. A `null` body makes the destructuring at api/ai.ts:37 throw, and the handler's own catch (api/ai.ts:198-202) answers 500 with "AI Gateway Internal Error"; a number, string or boolean body behaves like a request with every field absent. The body is modelled as a parsed `ChatRequest` or a parse failure, so neither case is represented.
- The default `temperature = 0.7` of `callAI`'s signature. Every `CallContext` carries an explicit temperature; the default is what callers omitting it get.
- Fractional priorities. The priority is an `int`; the configuration screen stores `Number(...)` of its input, which may be fractional. The sort and the choice of the best model compare priorities only, so they behave the same on any totally ordered numbers.
- Providers.Endpoint: its contract covers the static table and the Groq fallback only. The per-request HuggingFace and Gemini URLs are stated by `Wire.HuggingFaceEndpoint` and `Wire.GeminiShape`.

=== FILE: basics.dfy ===
/** Optional and fallible values shared by the gateway and the orchestrator. */
module Basics {

  /** A value that may be missing: JavaScript's `undefined` is `None`. */
  datatype Option<+T> = None | Some(value: T)

  /** An operation that either produces a value or fails with an error. */
  datatype Result<+T, +E> = Ok(value: T) | Err(error: E)

  /** JavaScript truthiness of an optional string: `undefined` and `""` are false. */
  predicate Present(s: Option<string>) {
    s.Some? && s.value != ""
  }

  /** `s || fallback` for an optional string. */
  function OrElse(s: Option<string>, fallback: string): string {
    if Present(s) then s.value else fallback
  }

  /** A string interpolated into a template literal: `undefined` prints as "undefined". */
  function Interpolate(s: Option<string>): string {
    match s
    case None => "undefined"
    case Some(v) => v
  }
}

=== FILE: credentials.dfy ===
/** Which API key a gateway request is sent with. */
module Credentials {
  import opened Basics
  import opened Text

  /** A server environment (`process.env`): names to values. */
  type Env = map<string, string>

  /** `env[name]`, `undefined` when the variable is not set. */
  function EnvGet(env: Env, name: string): Option<string> {
    if name in env then Some(env[name]) else None
  }

  /** The environment variable holding the comma-separated Groq key pool. */
  const PoolVariable := "GROQ_API_KEYS"

  /** The environment variable holding the single key of a non-Groq provider. */
  function KeyVariable(tag: string): string {
    tag + "_API_KEY"
  }

  /** `parts.map(k => k.trim())`. */
  function Trims(parts: seq<string>): (r: seq<string>)
    ensures |r| == |parts|
    ensures forall j :: 0 <= j < |parts| ==> r[j] == Trim(parts[j])
  {
    if |parts| == 0 then [] else [Trim(parts[0])] + Trims(parts[1..])
  }

  /** `.filter(Boolean)`: the non-empty strings, in order. */
  function NonEmpty(xs: seq<string>): (r: seq<string>)
    ensures forall k :: k in r <==> k in xs && k != ""
    ensures |r| <= |xs|
  {
    if |xs| == 0 then []
    else
      var rest := NonEmpty(xs[1..]);
      assert forall k :: k in xs <==> k == xs[0] || k in xs[1..];
      if xs[0] == "" then rest else [xs[0]] + rest
  }

  /** The filter keeps order: the non-empty strings of a concatenation are those of each part, in turn. */
  lemma {:induction false} NonEmptyAppend(a: seq<string>, b: seq<string>)
    ensures NonEmpty(a + b) == NonEmpty(a) + NonEmpty(b)
  {
    if |a| > 0 {
      assert (a + b)[1..] == a[1..] + b;
      NonEmptyAppend(a[1..], b);
    } else {
      assert a + b == b;
    }
  }

  /** The key pool a raw `GROQ_API_KEYS` value describes: comma-split, trimmed, blanks dropped. */
  function KeyPool(raw: string): (pool: seq<string>)
    ensures forall i :: 0 <= i < |pool| ==> pool[i] != "" && ',' !in pool[i] && Trim(pool[i]) == pool[i]
    ensures forall k :: k in pool <==> k != "" && k in Trims(Split(raw, ','))
  {
    var parts := Split(raw, ',');
    var trims := Trims(parts);
    var pool := NonEmpty(trims);
    forall i | 0 <= i < |pool| ensures pool[i] != "" && ',' !in pool[i] && Trim(pool[i]) == pool[i] {
      assert pool[i] in pool;
      assert pool[i] in trims;
      var j :| 0 <= j < |trims| && trims[j] == pool[i];
      TrimKeepsAbsent(parts[j], ',');
      TrimIdempotent(parts[j]);

    }
    pool
  }

  /** The Groq pool the environment offers; empty when the variable is unset or blank. */
  function GroqPool(env: Env): (r: seq<string>)
    ensures PoolVariable !in env ==> r == []
    ensures forall i :: 0 <= i < |r| ==> r[i] != "" && ',' !in r[i] && Trim(r[i]) == r[i]
    ensures PoolVariable in env ==>
      forall k :: k in r <==> k != "" && k in Trims(Split(env[PoolVariable], ','))
  {
    if PoolVariable in env then KeyPool(env[PoolVariable]) else []
  }

  /**
   * The key a request is sent with. A truthy request key always wins; otherwise
   * GROQ draws from its pool (`pick` stands for `Math.random`) and every other tag
   * reads `<TAG>_API_KEY`.
   */
  function ResolveKey(tag: string, requestKey: Option<string>, env: Env, pick: nat): (key: Option<string>)
    ensures Present(requestKey) ==> key == requestKey
    ensures !Present(requestKey) && tag != "GROQ" ==> key == EnvGet(env, KeyVariable(tag))
    ensures !Present(requestKey) && tag == "GROQ" ==> (Present(key) <==> |GroqPool(env)| > 0)
    ensures !Present(requestKey) && tag == "GROQ" && Present(key) ==> key.value in GroqPool(env)
  {
    if Present(requestKey) then requestKey
    else if tag == "GROQ" then
      var pool := GroqPool(env);
      if |pool| > 0 then Some(pool[pick % |pool|]) else requestKey
    else EnvGet(env, KeyVariable(tag))
  }

  /** Load spreading: the draw `i` selects the `i`-th pool key, so every key can be chosen. */
  lemma EveryPoolKeyReachable(requestKey: Option<string>, env: Env, i: nat)
    requires !Present(requestKey)
    requires i < |GroqPool(env)|
    ensures ResolveKey("GROQ", requestKey, env, i) == Some(GroqPool(env)[i])
  {
    ModSmall(i, |GroqPool(env)|);
  }

  /** A draw below the pool size indexes the pool directly. */
  lemma ModSmall(i: nat, n: nat)
    requires i < n
    ensures i % n == i
  {
  }
}

=== FILE: failover.dfy ===
/**
 * The non-streaming orchestrator: `executeCall` posts one canonical request to
 * the gateway, and `callAI` walks the candidates in priority order until one
 * call succeeds.
 */
module Failover {
  import opened Basics
  import opened Text
  import opened Json
  import opened Wire
  import opened Gateway
  import opened Selection

  /** Why one call to the gateway failed. */
  datatype CallFailure =
    | ApiError(status: int, text: string)  // the gateway answered with a non-OK status
    | Thrown(message: string)              // fetch, the JSON parser or a property read threw

  /** Why `callAI` gave up. */
  datatype OrchestratorError = GloballyDisabled | AllModelsFailed

  function ErrorMessage(e: OrchestratorError): string {
    match e
    case GloballyDisabled => "AI System is Globally Disabled."
    case AllModelsFailed => "All AI Models failed to respond."
  }

  /**
   * The body `executeCall` posts: upper-cased provider, model id, messages,
   * temperature, and the model's own key only when it is truthy.
   */
  function CallRequest(model: AIModel, messages: seq<ChatMessage>, temperature: real): (req: ChatRequest)
    ensures req.provider == Some(ToUpper(model.provider)) && req.model == Some(model.id)
    ensures req.messages == messages && req.temperature == Some(temperature)
    ensures req.apiKey.Some? <==> Present(model.apiKey)
    ensures req.apiKey.Some? ==> req.apiKey == model.apiKey
    ensures req.maxTokens.None? && req.stream.None?
  {
    ChatRequest(messages, Some(model.id), Some(ToUpper(model.provider)),
                if Present(model.apiKey) then model.apiKey else None,
                Some(temperature), None, None)
  }

  /**
   * One call through the gateway. A non-OK status or anything that throws is a
   * failure; otherwise the answer is `choices[0].message.content || ""`.
   */
  function ExecuteCall(model: AIModel, messages: seq<ChatMessage>, temperature: real,
                       fetch: ChatRequest -> Upstream): (r: Result<Json, CallFailure>)
    ensures var reply := fetch(CallRequest(model, messages, temperature));
      r.Ok? <==> reply.Replied? && IsOk(reply.status) && reply.parsed.Ok? && reply.parsed.value != JNull
    ensures var reply := fetch(CallRequest(model, messages, temperature));
      reply.Replied? && !IsOk(reply.status) ==> r == Err(ApiError(reply.status, reply.text))
    ensures r.Ok? ==> r.value != JNull && (Truthy(r.value) || r.value == JStr(""))
    ensures r.Ok? ==>
      var found := Lookup(Some(fetch(CallRequest(model, messages, temperature)).parsed.value), [Key("choices")] + ContentPath);
      && (found.Some? && (found.value.JStr? || Truthy(found.value)) ==> r.value == found.value)
      && (Truthy(r.value) ==> found == Some(r.value))
  {
    match fetch(CallRequest(model, messages, temperature))
    case Threw(message) => Err(Thrown(message))
    case Replied(status, text, parsed) =>
      if !IsOk(status) then Err(ApiError(status, text))
      else
        match parsed
        case Err(message) => Err(Thrown(message))
        case Ok(data) =>
          match ExtractOrEmpty(data, "choices", ContentPath)
          case Err(message) => Err(Thrown(message))
          case Ok(content) => Ok(content)
  }

  /** The ids of a model list. */
  function Ids(ms: seq<AIModel>): set<string> {
    set m | m in ms :: m.id
  }

  /** No two models share an id. */
  predicate DistinctIds(ms: seq<AIModel>) {
    forall i, j :: 0 <= i < j < |ms| ==> ms[i].id != ms[j].id
  }

  /**
   * The candidates the loop would try if every call failed: each id once, at
   * its first occurrence, skipping ids in `seen`.
   */
  function Dedup(cands: seq<AIModel>, seen: set<string>): (r: seq<AIModel>)
    ensures DistinctIds(r)
    ensures forall i :: 0 <= i < |r| ==> r[i] in cands && r[i].id !in seen
  {
    if |cands| == 0 then []
    else
      assert cands == [cands[0]] + cands[1..];
      if cands[0].id in seen then Dedup(cands[1..], seen)
      else
        var rest := Dedup(cands[1..], seen + {cands[0].id});
        [cands[0]] + rest
  }

  /**
   * Deduplication keeps order and first occurrences: the survivors of a
   * concatenation are those of the first part, then those of the second that
   * neither `seen` nor the first part holds.
   */
  lemma {:induction false} DedupAppend(a: seq<AIModel>, b: seq<AIModel>, seen: set<string>)
    ensures Dedup(a + b, seen) == Dedup(a, seen) + Dedup(b, seen + Ids(a))
  {
    if |a| == 0 {
      assert a + b == b;
      assert seen + Ids(a) == seen;
    } else {
      var c := a[0];
      var ab := a + b;
      assert ab[0] == c && ab[1..] == a[1..] + b;
      IdsCons(a);
      if c.id in seen {
        DedupAppend(a[1..], b, seen);
        calc {
          Dedup(ab, seen);
          Dedup(a[1..] + b, seen);
          Dedup(a[1..], seen) + Dedup(b, seen + Ids(a[1..]));
          { assert seen + Ids(a[1..]) == seen + Ids(a); }
          Dedup(a, seen) + Dedup(b, seen + Ids(a));
        }
      } else {
        var seen' := seen + {c.id};
        DedupAppend(a[1..], b, seen');
        calc {
          Dedup(ab, seen);
          [c] + Dedup(a[1..] + b, seen');
          [c] + (Dedup(a[1..], seen') + Dedup(b, seen' + Ids(a[1..])));
          { assert seen' + Ids(a[1..]) == seen + Ids(a); }
          ([c] + Dedup(a[1..], seen')) + Dedup(b, seen + Ids(a));
        }
      }
    }
  }

  /** The ids of a non-empty list: its head's and its tail's. */
  lemma IdsCons(a: seq<AIModel>)
    requires |a| > 0
    ensures Ids(a) == {a[0].id} + Ids(a[1..])
  {
    assert a == [a[0]] + a[1..];
  }

  /** A single model survives exactly when its id is not yet seen. */
  lemma DedupOne(m: AIModel, seen: set<string>)
    ensures Dedup([m], seen) == if m.id in seen then [] else [m]
  {
  }

  /** Deduplicating a list sorted by priority leaves it sorted. */
  lemma {:induction false} DedupSorted(cands: seq<AIModel>, seen: set<string>)
    requires SortedByPriority(cands)
    ensures SortedByPriority(Dedup(cands, seen))
  {
    if |cands| > 0 {
      var c := cands[0];
      assert forall x :: x in cands[1..] ==> c.priority <= x.priority;
      if c.id in seen {
        DedupSorted(cands[1..], seen);
      } else {
        DedupSorted(cands[1..], seen + {c.id});
      }
    }
  }

  /** Deduplication drops exactly the ids already seen: every other id survives once. */
  lemma {:induction false} DedupKeepsIds(cands: seq<AIModel>, seen: set<string>)
    ensures Ids(Dedup(cands, seen)) == Ids(cands) - seen
  {
    if |cands| > 0 {
      var c := cands[0];
      assert cands == [c] + cands[1..];
      assert Ids(cands) == {c.id} + Ids(cands[1..]);
      if c.id in seen {
        DedupKeepsIds(cands[1..], seen);
      } else {
        DedupKeepsIds(cands[1..], seen + {c.id});
        var rest := Dedup(cands[1..], seen + {c.id});
        assert Ids([c] + rest) == {c.id} + Ids(rest);
      }
    }
  }

  /** The outcome of a failover run and the models handed to `executeCall`, in order. */
  datatype Run = Run(result: Result<Json, OrchestratorError>, trace: seq<AIModel>)

  /** What every `executeCall` of one `callAI` shares: the messages, the temperature and the gateway. */
  datatype CallContext = CallContext(messages: seq<ChatMessage>, temperature: real, fetch: ChatRequest -> Upstream)

  /** `executeCall(model, ...)` within a context. */
  function Attempt(ctx: CallContext, m: AIModel): Result<Json, CallFailure> {
    ExecuteCall(m, ctx.messages, ctx.temperature, ctx.fetch)
  }

  /** The `for ... of` loop of `callAI` from some point on; `tried` holds the ids already attempted. */
  function Loop(cands: seq<AIModel>, tried: set<string>, ctx: CallContext): (r: Run)
    ensures r.result.Err? ==> r.result.error == AllModelsFailed
    decreases |cands|
  {
    if |cands| == 0 then Run(Err(AllModelsFailed), [])
    else if cands[0].id in tried then Loop(cands[1..], tried, ctx)
    else
      match Attempt(ctx, cands[0])
      case Ok(v) => Run(Ok(v), [cands[0]])
      case Err(_) =>
        var rest := Loop(cands[1..], tried + {cands[0].id}, ctx);
        Run(rest.result, [cands[0]] + rest.trace)
  }

  /** The run is a prefix of `d` in which every model but a successful last one failed; failure means all of `d` failed. */
  ghost predicate FirstSuccessRun(r: Run, d: seq<AIModel>, ctx: CallContext) {
    && r.trace <= d
    && (forall i :: 0 <= i < |r.trace| - 1 ==> Attempt(ctx, r.trace[i]).Err?)
    && (r.result.Ok? ==> |r.trace| > 0 && Attempt(ctx, r.trace[|r.trace| - 1]) == Ok(r.result.value))
    && (r.result.Err? ==> r.trace == d && forall i :: 0 <= i < |r.trace| ==> Attempt(ctx, r.trace[i]).Err?)
  }

  /** A failed attempt in front of a first-success run is again a first-success run. */
  lemma ConsFailure(c: AIModel, rest: Run, d: seq<AIModel>, ctx: CallContext)
    requires Attempt(ctx, c).Err?
    requires FirstSuccessRun(rest, d, ctx)
    ensures FirstSuccessRun(Run(rest.result, [c] + rest.trace), [c] + d, ctx)
  {
  }

  /**
   * First success wins: the loop stops at the first model that succeeds; the
   * models it tried are a prefix of the deduplicated candidates; it fails only
   * after every one of them failed.
   */
  lemma {:induction false} LoopFirstSuccess(cands: seq<AIModel>, tried: set<string>, ctx: CallContext)
    ensures FirstSuccessRun(Loop(cands, tried, ctx), Dedup(cands, tried), ctx)
    decreases |cands|
  {
    if |cands| == 0 {
    } else if cands[0].id in tried {
      assert Dedup(cands, tried) == Dedup(cands[1..], tried);
      LoopFirstSuccess(cands[1..], tried, ctx);
    } else {
      var c := cands[0];
      var dRest := Dedup(cands[1..], tried + {c.id});
      assert Dedup(cands, tried) == [c] + dRest;
      if Attempt(ctx, c).Err? {
        LoopFirstSuccess(cands[1..], tried + {c.id}, ctx);
        ConsFailure(c, Loop(cands[1..], tried + {c.id}, ctx), dRest, ctx);
      }
    }
  }

  /**
   * `callAI`: refuses at once when the system is disabled, otherwise runs the
   * failover loop over the candidates, trying each with `executeCall`.
   */
  function CallAI(config: AISystemConfig, ctx: CallContext): (r: Run)
    ensures !config.globalEnabled ==> r == Run(Err(GloballyDisabled), [])
    ensures config.globalEnabled ==> |r.trace| >= 1 && FirstSuccessRun(r, Dedup(Candidates(config), {}), ctx)
  {
    if !config.globalEnabled then Run(Err(GloballyDisabled), [])
    else
      var cands := Candidates(config);
      assert Dedup(cands, {})[0] == cands[0];
      LoopFirstSuccess(cands, {}, ctx);
      Loop(cands, {}, ctx)
  }

  /**
   * The tag the gateway routes an orchestrator call by: upper-casing twice
   * changes nothing, but a model with an empty provider string is routed to Groq.
   */
  lemma GatewayTag(model: AIModel, messages: seq<ChatMessage>, temperature: real)
    ensures TargetProvider(CallRequest(model, messages, temperature)) ==
      if model.provider == "" then "GROQ" else ToUpper(model.provider)
  {
  }

  /** Within one `callAI`, no model id is handed to `executeCall` twice. */
  lemma TraceIdsDistinct(config: AISystemConfig, ctx: CallContext)
    ensures DistinctIds(CallAI(config, ctx).trace)
  {
  }

  /**
   * When every call fails, `callAI` ends in "All AI Models failed" after trying
   * every distinct candidate id exactly once.
   */
  lemma ExhaustionTriesEveryIdOnce(config: AISystemConfig, ctx: CallContext)
    requires config.globalEnabled
    requires forall m :: m in Candidates(config) ==> Attempt(ctx, m).Err?
    ensures var r := CallAI(config, ctx);
      && r.result == Err(AllModelsFailed)
      && ErrorMessage(r.result.error) == "All AI Models failed to respond."
      && DistinctIds(r.trace)
      && Ids(r.trace) == Ids(Candidates(config))
  {
    var r := CallAI(config, ctx);
    DedupKeepsIds(Candidates(config), {});
  }

  /** `callAI` tries models in non-decreasing priority. */
  lemma TraceFollowsPriority(config: AISystemConfig, ctx: CallContext)
    ensures SortedByPriority(CallAI(config, ctx).trace)
  {
    if config.globalEnabled {
      var d := Dedup(Candidates(config), {});
      DedupSorted(Candidates(config), {});
      var t := CallAI(config, ctx).trace;
      assert forall i :: 0 <= i < |t| ==> t[i] == d[i];
    }
  }

  /**
   * Three enabled models of priorities 1, 2 and 3, listed in any order: when
   * priority 1 fails and priority 2 succeeds, `callAI` returns priority 2's
   * answer and never calls priority 3.
   */
  lemma SecondPrioritySucceeds(config: AISystemConfig, ctx: CallContext, a: AIModel, b: AIModel, c: AIModel, v: Json)
    requires config.globalEnabled && multiset(config.models) == multiset{a, b, c}
    requires a.enabled && b.enabled && c.enabled
    requires a.priority == 1 && b.priority == 2 && c.priority == 3
    requires a.id != b.id
    requires Attempt(ctx, a).Err?
    requires Attempt(ctx, b) == Ok(v)
    ensures CallAI(config, ctx) == Run(Ok(v), [a, b])
  {
    CandidatesOfThree(config, a, b, c);
    CallAIRunsLoop(config, ctx);
    SecondOfThree(a, b, c, ctx, v);
  }

  /** With the system enabled, `callAI` is the loop over the candidates from an empty `tried` set. */
  lemma CallAIRunsLoop(config: AISystemConfig, ctx: CallContext)
    requires config.globalEnabled
    ensures CallAI(config, ctx) == Loop(Candidates(config), {}, ctx)
  {
  }

  /** The loop over `[a, b, c]` stops at `b` when `a` fails and `b` succeeds. */
  lemma SecondOfThree(a: AIModel, b: AIModel, c: AIModel, ctx: CallContext, v: Json)
    requires a.id != b.id
    requires Attempt(ctx, a).Err?
    requires Attempt(ctx, b) == Ok(v)
    ensures Loop([a, b, c], {}, ctx) == Run(Ok(v), [a, b])
  {
    assert [a, b, c][1..] == [b, c];
    assert Loop([b, c], {a.id}, ctx) == Run(Ok(v), [b]);
  }

  /** Three enabled models of distinct priorities, in any order, are tried by priority. */
  lemma CandidatesOfThree(config: AISystemConfig, a: AIModel, b: AIModel, c: AIModel)
    requires multiset(config.models) == multiset{a, b, c}
    requires a.enabled && b.enabled && c.enabled
    requires a.priority < b.priority < c.priority
    ensures Candidates(config) == [a, b, c]
  {
    forall i | 0 <= i < |config.models| ensures config.models[i].enabled {
      assert config.models[i] in multiset(config.models);
    }
    AllEnabled(config.models);
    SortedThree(Candidates(config), a, b, c);
  }

  /** The only arrangement of three models of strictly increasing priority that is sorted. */
  lemma SortedThree(r: seq<AIModel>, a: AIModel, b: AIModel, c: AIModel)
    requires SortedByPriority(r) && multiset(r) == multiset{a, b, c}
    requires a.priority < b.priority < c.priority
    ensures r == [a, b, c]
  {
    assert |r| == 3 by { assert |multiset(r)| == |r|; }
    assert a in multiset(r) && b in multiset(r) && c in multiset(r);
    var i :| 0 <= i < 3 && r[i] == a;
    var j :| 0 <= j < 3 && r[j] == b;
    var k :| 0 <= k < 3 && r[k] == c;
  }

  /** Filtering a list of enabled models changes nothing. */
  lemma {:induction false} AllEnabled(ms: seq<AIModel>)
    requires forall i :: 0 <= i < |ms| ==> ms[i].enabled
    ensures Enabled(ms) == ms
  {
    if |ms| > 0 {
      AllEnabled(ms[1..]);
      assert ms == [ms[0]] + ms[1..];
    }
  }
}

=== FILE: gateway.dfy ===
/**
 * The gateway request handler: method and body guards, provider and key
 * resolution, one upstream call, and the translation of its answer. The
 * upstream `fetch` is a parameter, so the handler is a pure function of the
 * request, the environment, the random draw and the upstream's behaviour.
 */
module Gateway {
  import opened Basics
  import opened Text
  import opened Json
  import opened Providers
  import opened Credentials
  import opened Wire

  /** An inbound HTTP request; `body` is `None` when it is not valid JSON. */
  datatype Request = Request(verb: string, body: Option<ChatRequest>)

  /**
   * What the upstream call produced: `fetch` threw, or a response with its
   * status, its body text, and that text parsed as JSON (or the parser's error).
   */
  datatype Upstream =
    | Threw(message: string)
    | Replied(status: int, text: string, parsed: Result<Json, string>)

  /** A response body: JSON, or the upstream event stream relayed byte for byte. */
  datatype Body = JsonBody(json: Json) | Relay(upstream: string)

  datatype Response = Response(status: int, headers: map<string, string>, body: Body)

  /** One handled request: the response and the upstream calls made to produce it. */
  datatype Exchange = Exchange(response: Response, calls: seq<WireRequest>)

  predicate IsOk(status: int) {
    200 <= status <= 299
  }

  const JsonHeaders: map<string, string> := map["Content-Type" := "application/json"]

  const StreamHeaders: map<string, string> :=
    map["Content-Type" := "text/event-stream", "Cache-Control" := "no-cache", "Connection" := "keep-alive"]

  /** `{error: message}`. */
  function ErrorBody(message: string): Json {
    JObj([("error", JStr(message))])
  }

  /** `{error: message, detail}`. */
  function ErrorDetailBody(message: string, detail: string): Json {
    JObj([("error", JStr(message)), ("detail", JStr(detail))])
  }

  /** The catch-all for anything that throws: a 500 carrying the exception's message. */
  function InternalError(message: string): Response {
    Response(500, JsonHeaders, JsonBody(ErrorDetailBody("AI Gateway Internal Error", message)))
  }

  /** `(provider || 'GROQ').toUpperCase()`. */
  function TargetProvider(req: ChatRequest): (tag: string)
    ensures !Present(req.provider) ==> tag == "GROQ"
    ensures Present(req.provider) ==> tag == ToUpper(req.provider.value)
    ensures Present(req.provider) ==> |tag| == |req.provider.value|
    ensures forall i :: 0 <= i < |tag| ==> !('a' <= tag[i] <= 'z')
  {
    ToUpper(OrElse(req.provider, "GROQ"))
  }

  /** The message naming the provider that has no key. */
  function MissingKeyMessage(tag: string): string {
    "Server Configuration Error: No valid keys found for " + tag + "."
  }

  /**
   * The response to one upstream answer. A non-OK status is passed through
   * with `{error: "<TAG> API Error", detail}`; a stream is relayed; otherwise
   * the JSON is normalised (Gemini, Anthropic) or returned unchanged.
   */
  function Respond(tag: string, stream: bool, reply: Upstream): (r: Response)
    ensures reply.Threw? ==> r == InternalError(reply.message)
    ensures reply.Replied? && !IsOk(reply.status) ==>
      r == Response(reply.status, JsonHeaders, JsonBody(ErrorDetailBody(tag + " API Error", reply.text)))
    ensures reply.Replied? && IsOk(reply.status) && stream ==> r == Response(200, StreamHeaders, Relay(reply.text))
    ensures reply.Replied? && IsOk(reply.status) && !stream && reply.parsed.Ok? && Parse(tag) !in {Gemini, Anthropic} ==>
      r == Response(200, JsonHeaders, JsonBody(reply.parsed.value))
    ensures reply.Replied? && IsOk(reply.status) && !stream && reply.parsed.Err? ==> r == InternalError(reply.parsed.error)
    ensures reply.Replied? && IsOk(reply.status) && !stream && reply.parsed.Ok? ==>
      var n := Normalize(Parse(tag), reply.parsed.value);
      r == if n.Ok? then Response(200, JsonHeaders, JsonBody(n.value)) else InternalError(n.error)
    ensures r.status == 200 || r.status == 500 || (reply.Replied? && r.status == reply.status && !IsOk(r.status))
  {
    match reply
    case Threw(message) => InternalError(message)
    case Replied(status, text, parsed) =>
      if !IsOk(status) then
        Response(status, JsonHeaders, JsonBody(ErrorDetailBody(tag + " API Error", text)))
      else if stream then
        Response(200, StreamHeaders, Relay(text))
      else
        match parsed
        case Err(message) => InternalError(message)
        case Ok(data) =>
          match Normalize(Parse(tag), data)
          case Err(message) => InternalError(message)
          case Ok(out) => Response(200, JsonHeaders, JsonBody(out))
  }

  /**
   * The whole handler. `pick` stands for the `Math.random` draw of the Groq key
   * pool and `fetch` for the upstream provider.
   */
  function Handle(req: Request, env: Env, pick: nat, fetch: WireRequest -> Upstream): (x: Exchange)
    ensures |x.calls| <= 1
    ensures req.verb != "POST" ==> x == Exchange(Response(405, JsonHeaders, JsonBody(ErrorBody("Method not allowed"))), [])
    ensures req.verb == "POST" && req.body.None? ==>
      x == Exchange(Response(400, map[], JsonBody(ErrorBody("Invalid JSON body"))), [])
    ensures |x.calls| == 1 ==> fetch(x.calls[0]).Replied? && !IsOk(fetch(x.calls[0]).status) ==>
      x.response.status == fetch(x.calls[0]).status
    ensures |x.calls| == 1 ==>
      var body := req.body.value;
      var tag := TargetProvider(body);
      && x.calls[0] == ToWire(tag, body, ResolveKey(tag, body.apiKey, env, pick))
      && x.response == Respond(tag, StreamFlag(body.stream), fetch(x.calls[0]))
    ensures |x.calls| == 1 <==>
      && req.verb == "POST" && req.body.Some?
      && var tag := TargetProvider(req.body.value);
         (Present(ResolveKey(tag, req.body.value.apiKey, env, pick)) || KeyOptional(tag))
  {
    if req.verb != "POST" then
      Exchange(Response(405, JsonHeaders, JsonBody(ErrorBody("Method not allowed"))), [])
    else if req.body.None? then
      Exchange(Response(400, map[], JsonBody(ErrorBody("Invalid JSON body"))), [])
    else
      var body := req.body.value;
      var tag := TargetProvider(body);
      var key := ResolveKey(tag, body.apiKey, env, pick);
      if !Present(key) && !KeyOptional(tag) then
        Exchange(Response(500, JsonHeaders, JsonBody(ErrorBody(MissingKeyMessage(tag)))), [])
      else
        var wire := ToWire(tag, body, key);
        Exchange(Respond(tag, StreamFlag(body.stream), fetch(wire)), [wire])
  }

  /**
   * A streaming request that the provider accepts is answered 200 with the
   * event-stream headers and the provider's stream relayed as it is.
   */
  lemma StreamIsRelayed(req: Request, env: Env, pick: nat, fetch: WireRequest -> Upstream)
    requires req.verb == "POST" && req.body.Some? && req.body.value.stream == Some(true)
    requires var tag := TargetProvider(req.body.value);
      Present(ResolveKey(tag, req.body.value.apiKey, env, pick)) || KeyOptional(tag)
    ensures var x := Handle(req, env, pick, fetch);
      && |x.calls| == 1
      && (fetch(x.calls[0]).Replied? && IsOk(fetch(x.calls[0]).status) ==>
            x.response == Response(200, StreamHeaders, Relay(fetch(x.calls[0]).text)))
  {
  }

  /**
   * With no key resolved for a provider that needs one, the handler answers 500
   * with an error naming the provider and calls nothing upstream.
   */
  lemma MissingKeyIsConfigurationError(req: Request, env: Env, pick: nat, fetch: WireRequest -> Upstream)
    requires req.verb == "POST" && req.body.Some?
    requires var tag := TargetProvider(req.body.value);
      !Present(ResolveKey(tag, req.body.value.apiKey, env, pick)) && !KeyOptional(tag)
    ensures var x := Handle(req, env, pick, fetch);
      && x.calls == []
      && x.response.status == 500
      && x.response.body == JsonBody(ErrorBody(MissingKeyMessage(TargetProvider(req.body.value))))
  {
  }

  /** The error message ends with the provider's tag and a full stop. */
  lemma MissingKeyMessageNamesProvider(tag: string)
    ensures var m := MissingKeyMessage(tag);
      |m| > |tag| && m[|m| - |tag| - 1..|m| - 1] == tag && m[|m| - 1] == '.'
  {
  }

  /**
   * LOCAL needs no key: with no request key and no environment key the request
   * still reaches the upstream, without an `Authorization` header.
   */
  lemma LocalProceedsWithoutKey(req: Request, env: Env, pick: nat, fetch: WireRequest -> Upstream)
    requires req.verb == "POST" && req.body.Some?
    requires req.body.value.provider == Some("LOCAL")
    requires !Present(req.body.value.apiKey) && KeyVariable("LOCAL") !in env
    ensures var x := Handle(req, env, pick, fetch);
      && |x.calls| == 1
      && x.calls[0].endpoint == "http://localhost:11434/v1/chat/completions"
      && "Authorization" !in x.calls[0].headers
  {
    var body := req.body.value;
    ToUpperKeepsUpper("LOCAL");
    assert TargetProvider(body) == "LOCAL";
    var key := ResolveKey("LOCAL", body.apiKey, env, pick);
    assert key == None;
    var w := ToWire("LOCAL", body, key);
    assert Parse("LOCAL") == Local;
    assert w.endpoint == "http://localhost:11434/v1/chat/completions";
    assert Handle(req, env, pick, fetch).calls == [w];
  }

  /** OPENAI without any key is refused before any upstream call. */
  lemma OpenAIWithoutKeyIsRefused(req: Request, env: Env, pick: nat, fetch: WireRequest -> Upstream)
    requires req.verb == "POST" && req.body.Some?
    requires req.body.value.provider == Some("OPENAI")
    requires !Present(req.body.value.apiKey) && KeyVariable("OPENAI") !in env
    ensures Handle(req, env, pick, fetch).calls == []
    ensures Handle(req, env, pick, fetch).response.status == 500
  {
  }

  /**
   * A bearer `Authorization` header is sent exactly when the tag is neither
   * GEMINI nor ANTHROPIC and a truthy key was resolved.
   */
  lemma BearerExactlyForStandardProviders(req: Request, env: Env, pick: nat, fetch: WireRequest -> Upstream)
    requires |Handle(req, env, pick, fetch).calls| == 1
    ensures var body := req.body.value;
      var tag := TargetProvider(body);
      var key := ResolveKey(tag, body.apiKey, env, pick);
      var h := Handle(req, env, pick, fetch).calls[0].headers;
      && ("Authorization" in h <==> tag != "GEMINI" && tag != "ANTHROPIC" && Present(key))
      && ("Authorization" in h ==> h["Authorization"] == "Bearer " + key.value)
  {
  }

  /**
   * A successful non-streaming Gemini or Anthropic call answers in the
   * canonical shape; reading `choices[0].message.content` from it yields the
   * extracted text, or "" when the provider's path is missing.
   */
  lemma NormalizedAnswerIsCanonical(tag: string, status: int, text: string, data: Json)
    requires Parse(tag) in {Gemini, Anthropic} && IsOk(status) && data != JNull
    ensures var r := Respond(tag, false, Replied(status, text, Ok(data)));
      && r.status == 200
      && r.body.JsonBody?
      && var c := OrEmpty(Lookup(Some(r.body.json), [Key("choices")] + ContentPath));
         c != JNull && (Truthy(c) || c == JStr(""))
         && c == OrEmpty(Lookup(Some(data), if Parse(tag) == Gemini then GeminiTextPath else AnthropicTextPath))
  {
    var c := OrEmpty(Lookup(Some(data), if Parse(tag) == Gemini then GeminiTextPath else AnthropicTextPath));
    CanonicalContentRoundTrip(c);
  }
}

=== FILE: json.dfy ===
/** A parsed JSON value and the optional-chaining lookups the gateway performs on it. */
module Json {
  import opened Basics

  /** A JSON document as produced by `JSON.parse`; numbers are exact rationals. */
  datatype Json =
    | JNull
    | JBool(b: bool)
    | JNum(n: real)
    | JStr(s: string)
    | JArr(items: seq<Json>)
    | JObj(fields: seq<(string, Json)>)

  /** JavaScript's `Boolean(v)` on a JSON value. */
  predicate Truthy(v: Json) {
    match v
    case JNull => false
    case JBool(b) => b
    case JNum(n) => n != 0.0
    case JStr(s) => s != ""
    case JArr(_) => true
    case JObj(_) => true
  }

  /** The value of `key` in an object's field list; `JSON.parse` keeps the last duplicate. */
  function Member(fields: seq<(string, Json)>, key: string): (r: Option<Json>)
    ensures r.None? <==> forall i :: 0 <= i < |fields| ==> fields[i].0 != key
    ensures r.Some? ==> exists i ::
      && 0 <= i < |fields| && fields[i] == (key, r.value)
      && forall j :: i < j < |fields| ==> fields[j].0 != key
  {
    if |fields| == 0 then None
    else if fields[|fields| - 1].0 == key then Some(fields[|fields| - 1].1)
    else Member(fields[..|fields| - 1], key)
  }

  /** One step of a property path: `.name` or `[0]`. */
  datatype Step = Key(name: string) | First

  /** One optional-chaining step (`?.name`, `?.[0]`) from a value that exists and is not null. */
  function Access(v: Json, step: Step): Option<Json> {
    match step
    case Key(name) => if v.JObj? then Member(v.fields, name) else None
    case First =>
      if v.JArr? then (if |v.items| > 0 then Some(v.items[0]) else None)
      else if v.JObj? then Member(v.fields, "0")
      else None
  }

  /** Follows `v?.s1?.s2...`: a missing or null value short-circuits to `undefined` (`None`). */
  function Lookup(v: Option<Json>, path: seq<Step>): (r: Option<Json>)
    ensures v.None? ==> r.None?
    ensures |path| == 0 ==> r == v
    decreases |path|
  {
    if |path| == 0 then v
    else if v.None? || v.value == JNull then None
    else Lookup(Access(v.value, path[0]), path[1..])
  }

  /** `v || ""`: a truthy value is kept, anything else (missing, null, false, 0, "") becomes "". */
  function OrEmpty(v: Option<Json>): (r: Json)
    ensures r != JNull
    ensures Truthy(r) || r == JStr("")
    ensures v.Some? && Truthy(v.value) ==> r == v.value
    ensures v.Some? && v.value.JStr? ==> r == v.value
    ensures Truthy(r) ==> v == Some(r)
  {
    if v.Some? && Truthy(v.value) then v.value else JStr("")
  }

  /** The message a TypeError carries when a property is read from `null`. */
  function NullAccess(property: string): string {
    "Cannot read properties of null (reading '" + property + "')"
  }

  /**
   * `root.p0?.rest... || ""` where `root` is a parsed response body: the first
   * access is a plain `.`, so a null body throws instead of short-circuiting.
   */
  function ExtractOrEmpty(root: Json, property: string, rest: seq<Step>): (r: Result<Json, string>)
    ensures r.Err? <==> root == JNull
    ensures r.Ok? ==> r.value != JNull && (Truthy(r.value) || r.value == JStr(""))
    ensures r.Ok? ==> var found := Lookup(Some(root), [Key(property)] + rest);
      (found.Some? && Truthy(found.value) ==> r.value == found.value)
      && (found.Some? && found.value.JStr? ==> r.value == found.value)
      && (Truthy(r.value) ==> found == Some(r.value))
  {
    if root == JNull then Err(NullAccess(property))
    else Ok(OrEmpty(Lookup(Some(root), [Key(property)] + rest)))
  }
}

=== FILE: providers.dfy ===
/** The provider registry of the gateway: the tags it dispatches on and its static endpoint table. */
module Providers {
  import opened Basics

  /**
   * A provider tag after upper-casing. The twelve tags the gateway dispatches on
   * get their own case; any other tag (COHERE, "LOCAL (OLLAMA)", a typo) is `Other`.
   */
  datatype Provider =
    | OpenAI | Groq | OpenRouter | DeepSeek | Mistral | Together | Fireworks | Perplexity
    | Anthropic | Gemini | Local | HuggingFace
    | Other(tag: string)

  /** The tag string of a provider, as compared in the dispatch chain. */
  function Name(p: Provider): string {
    match p
    case OpenAI => "OPENAI"
    case Groq => "GROQ"
    case OpenRouter => "OPENROUTER"
    case DeepSeek => "DEEPSEEK"
    case Mistral => "MISTRAL"
    case Together => "TOGETHER"
    case Fireworks => "FIREWORKS"
    case Perplexity => "PERPLEXITY"
    case Anthropic => "ANTHROPIC"
    case Gemini => "GEMINI"
    case Local => "LOCAL"
    case HuggingFace => "HUGGINGFACE"
    case Other(t) => t
  }

  /** The tags that select a dedicated branch. */
  const KnownTags: set<string> := {
    "OPENAI", "GROQ", "OPENROUTER", "DEEPSEEK", "MISTRAL", "TOGETHER", "FIREWORKS",
    "PERPLEXITY", "ANTHROPIC", "GEMINI", "LOCAL", "HUGGINGFACE"
  }

  /** A provider value as `Parse` produces it: `Other` never hides a known tag. */
  predicate Canonical(p: Provider) {
    p.Other? ==> p.tag !in KnownTags
  }

  /** Classifies an upper-cased tag; the tag itself is never lost. */
  function Parse(tag: string): (p: Provider)
    ensures Name(p) == tag
    ensures Canonical(p)
    ensures p.Other? <==> tag !in KnownTags
  {
    if tag == "OPENAI" then OpenAI
    else if tag == "GROQ" then Groq
    else if tag == "OPENROUTER" then OpenRouter
    else if tag == "DEEPSEEK" then DeepSeek
    else if tag == "MISTRAL" then Mistral
    else if tag == "TOGETHER" then Together
    else if tag == "FIREWORKS" then Fireworks
    else if tag == "PERPLEXITY" then Perplexity
    else if tag == "ANTHROPIC" then Anthropic
    else if tag == "GEMINI" then Gemini
    else if tag == "LOCAL" then Local
    else if tag == "HUGGINGFACE" then HuggingFace
    else Other(tag)
  }

  /** Parsing is the inverse of naming on canonical providers. */
  lemma ParseName(p: Provider)
    requires Canonical(p)
    ensures Parse(Name(p)) == p
  {
  }

  /** Tags that may proceed without any credential. */
  predicate KeyOptional(tag: string) {
    tag == "LOCAL" || tag == "LOCAL (OLLAMA)"
  }

  const GroqEndpoint := "https://api.groq.com/openai/v1/chat/completions"

  /** The static endpoint table; HuggingFace and Gemini build their URL per request. */
  function StaticEndpoint(p: Provider): Option<string> {
    match p
    case OpenAI => Some("https://api.openai.com/v1/chat/completions")
    case Groq => Some(GroqEndpoint)
    case OpenRouter => Some("https://openrouter.ai/api/v1/chat/completions")
    case DeepSeek => Some("https://api.deepseek.com/chat/completions")
    case Mistral => Some("https://api.mistral.ai/v1/chat/completions")
    case Together => Some("https://api.together.xyz/v1/chat/completions")
    case Fireworks => Some("https://api.fireworks.ai/inference/v1/chat/completions")
    case Perplexity => Some("https://api.perplexity.ai/chat/completions")
    case Anthropic => Some("https://api.anthropic.com/v1/messages")
    case Local => Some("http://localhost:11434/v1/chat/completions")
    case Gemini => None
    case HuggingFace => None
    case Other(_) => None
  }

  /**
   * The URL a request is posted to. Tags without a branch of their own (including
   * COHERE and "LOCAL (OLLAMA)") keep the initial Groq endpoint.
   */
  function Endpoint(p: Provider, model: Option<string>, key: Option<string>): (url: string)
    ensures StaticEndpoint(p).Some? ==> url == StaticEndpoint(p).value
    ensures p.Other? ==> url == GroqEndpoint
  {
    if StaticEndpoint(p).Some? then StaticEndpoint(p).value
    else if p == HuggingFace then
      "https://api-inference.huggingface.co/models/" + Interpolate(model) + "/v1/chat/completions"
    else if p == Gemini then
      "https://generativelanguage.googleapis.com/v1beta/models/" + OrElse(model, "gemini-1.5-flash")
        + ":generateContent?key=" + Interpolate(key)
    else GroqEndpoint
  }
}

=== FILE: selection.dfy ===
/**
 * Model selection of the orchestrator: the enabled models ordered by ascending
 * priority (a stable sort, as JavaScript's `Array.prototype.sort` is), with a
 * built-in emergency default when nothing is enabled.
 */
module Selection {
  import opened Basics

  /** A configured model; `provider` is the lower-case tag the admin screen stores. */
  datatype AIModel = AIModel(
    id: string,
    name: string,
    provider: string,
    enabled: bool,
    priority: int,
    apiKey: Option<string>)

  /** The part of the system configuration selection reads. */
  datatype AISystemConfig = AISystemConfig(globalEnabled: bool, models: seq<AIModel>)

  /** The built-in model list; its first entry is the emergency default. */
  const DefaultModels: seq<AIModel> := [
    AIModel("llama-3.1-8b-instant", "Groq LLaMA 3.1", "groq", true, 1, None),
    AIModel("gemini-1.5-flash", "Gemini 1.5 Flash", "gemini", true, 2, None),
    AIModel("gpt-4o-mini", "GPT-4o Mini", "openai", false, 3, None),
    AIModel("openai/gpt-3.5-turbo", "OpenRouter GPT-3.5", "openrouter", true, 4, None)
  ]

  /** The model used when every configured model is disabled. */
  const EmergencyDefault: AIModel := DefaultModels[0]

  /** `models.filter(m => m.enabled)`: the enabled models in configuration order. */
  function Enabled(ms: seq<AIModel>): (r: seq<AIModel>)
    ensures forall i :: 0 <= i < |r| ==> r[i].enabled
    ensures forall m :: m in r <==> m in ms && m.enabled
    ensures |r| <= |ms|
  {
    if |ms| == 0 then []
    else
      assert forall m :: m in ms <==> m == ms[0] || m in ms[1..];
      if ms[0].enabled then [ms[0]] + Enabled(ms[1..]) else Enabled(ms[1..])
  }

  /** The filter keeps order: the enabled models of a concatenation are those of each part, in turn. */
  lemma {:induction false} EnabledAppend(a: seq<AIModel>, b: seq<AIModel>)
    ensures Enabled(a + b) == Enabled(a) + Enabled(b)
  {
    if |a| > 0 {
      assert (a + b)[1..] == a[1..] + b;
      EnabledAppend(a[1..], b);
    } else {
      assert a + b == b;
    }
  }

  /** A single model survives exactly when it is enabled. */
  lemma EnabledOne(m: AIModel)
    ensures Enabled([m]) == if m.enabled then [m] else []
  {
  }

  /** Non-decreasing priorities. */
  predicate SortedByPriority(s: seq<AIModel>) {
    forall i, j :: 0 <= i < j < |s| ==> s[i].priority <= s[j].priority
  }

  /** The models of priority `p`, in their order in `s`. */
  function WithPriority(s: seq<AIModel>, p: int): (r: seq<AIModel>)
    ensures forall i :: 0 <= i < |r| ==> r[i].priority == p
  {
    if |s| == 0 then []
    else if s[0].priority == p then [s[0]] + WithPriority(s[1..], p)
    else WithPriority(s[1..], p)
  }

  /**
   * Places `m` before the first model whose priority is at least its own, so
   * ahead of the models of equal priority. `SortByPriority` inserts each model
   * into the sorted rest of the list that followed it, which keeps ties in input order.
   */
  function Insert(m: AIModel, s: seq<AIModel>): (r: seq<AIModel>)
    ensures multiset(r) == multiset(s) + multiset{m}
    ensures |r| == |s| + 1
    ensures forall x :: x in r <==> x == m || x in s
  {
    if |s| == 0 || m.priority <= s[0].priority then [m] + s
    else
      assert s == [s[0]] + s[1..];
      [s[0]] + Insert(m, s[1..])
  }

  /** Insertion keeps a sorted list sorted. */
  lemma {:induction false} InsertSorted(m: AIModel, s: seq<AIModel>)
    requires SortedByPriority(s)
    ensures SortedByPriority(Insert(m, s))
  {
    if |s| > 0 && m.priority > s[0].priority {
      InsertSorted(m, s[1..]);
      var t := Insert(m, s[1..]);
      forall k | 0 <= k < |t| ensures s[0].priority <= t[k].priority {
        assert t[k] in t;
        if t[k] != m {
          var j :| 0 <= j < |s[1..]| && s[1..][j] == t[k];
          assert s[j + 1] == t[k];
        }
      }
    }
  }

  /**
   * Insertion is stable for every priority class: a model is inserted in front of
   * the models of its own priority, which are the ones that come after it in
   * the input.
   */
  lemma {:induction false} InsertWithPriority(m: AIModel, s: seq<AIModel>, p: int)
    ensures WithPriority(Insert(m, s), p) == (if m.priority == p then [m] else []) + WithPriority(s, p)
  {
    if |s| == 0 || m.priority <= s[0].priority {
      assert ([m] + s)[1..] == s;
    } else {
      InsertWithPriority(m, s[1..], p);
      assert ([s[0]] + Insert(m, s[1..]))[1..] == Insert(m, s[1..]);
    }
  }

  /**
   * `sort((a, b) => a.priority - b.priority)`: ascending by priority and a
   * permutation of the input; `SortIsStable` adds that it is stable.
   */
  function SortByPriority(s: seq<AIModel>): (r: seq<AIModel>)
    ensures SortedByPriority(r)
    ensures multiset(r) == multiset(s)
    ensures |r| == |s|
  {
    if |s| == 0 then []
    else
      var rest := SortByPriority(s[1..]);
      InsertSorted(s[0], rest);
      assert s == [s[0]] + s[1..];
      assert multiset(s) == multiset{s[0]} + multiset(s[1..]);
      Insert(s[0], rest)
  }

  /** The sort is stable: each priority class keeps its order from the input (ECMAScript 2019 and later). */
  lemma {:induction false} SortIsStable(s: seq<AIModel>)
    ensures forall p :: WithPriority(SortByPriority(s), p) == WithPriority(s, p)
  {
    if |s| > 0 {
      var rest := SortByPriority(s[1..]);
      SortIsStable(s[1..]);
      assert s == [s[0]] + s[1..];
      forall p ensures WithPriority(SortByPriority(s), p) == WithPriority(s, p) {
        InsertWithPriority(s[0], rest, p);
      }
    }
  }

  /**
   * The failover order: the enabled models sorted by priority, or the single
   * emergency default when none is enabled.
   */
  function Candidates(config: AISystemConfig): (c: seq<AIModel>)
    ensures |c| >= 1
    ensures |Enabled(config.models)| == 0 ==> c == [EmergencyDefault]
    ensures |Enabled(config.models)| > 0 ==>
      && SortedByPriority(c)
      && multiset(c) == multiset(Enabled(config.models))
  {
    var enabled := Enabled(config.models);
    if |enabled| == 0 then [EmergencyDefault] else SortByPriority(enabled)
  }

  /** Models of equal priority are tried in configuration order. */
  lemma CandidatesAreStable(config: AISystemConfig)
    requires |Enabled(config.models)| > 0
    ensures forall p :: WithPriority(Candidates(config), p) == WithPriority(Enabled(config.models), p)
  {
    SortIsStable(Enabled(config.models));
  }

  /**
   * The single model used for streaming: an enabled model of least priority,
   * the earliest such one in configuration order; the emergency default when
   * nothing is enabled. The global switch is not consulted.
   */
  function GetBestModel(config: AISystemConfig): (m: AIModel)
    ensures |Enabled(config.models)| == 0 ==> m == EmergencyDefault
    ensures |Enabled(config.models)| > 0 ==>
      && m in config.models && m.enabled
      && (forall x :: x in config.models && x.enabled ==> m.priority <= x.priority)
      && exists i ::
           && 0 <= i < |Enabled(config.models)| && Enabled(config.models)[i] == m
           && forall j :: 0 <= j < i ==> Enabled(config.models)[j].priority > m.priority
  {
    var enabled := Enabled(config.models);
    if |enabled| == 0 then EmergencyDefault
    else
      LeastAndEarliest(enabled);
      SortByPriority(enabled)[0]
  }

  /** The head of the sorted list has least priority and is the earliest of its class in the input. */
  lemma LeastAndEarliest(s: seq<AIModel>)
    requires |s| > 0
    ensures var m := SortByPriority(s)[0];
      && m in s
      && (forall x :: x in s ==> m.priority <= x.priority)
      && exists i :: 0 <= i < |s| && s[i] == m && forall j :: 0 <= j < i ==> s[j].priority > m.priority
  {
    var sorted := SortByPriority(s);
    var m := sorted[0];
    assert m in multiset(s);
    forall x | x in s ensures m.priority <= x.priority {
      assert x in multiset(sorted);
      var k :| 0 <= k < |sorted| && sorted[k] == x;
    }
    HeadOfSortedClass(sorted);
    SortIsStable(s);
    assert WithPriority(sorted, m.priority) == WithPriority(s, m.priority);
    var i := FirstOfClass(s, m.priority);
    forall j | 0 <= j < i ensures s[j].priority > m.priority {
      assert s[j] in s;
    }
  }

  /** The head of a non-empty list heads its own priority class. */
  lemma HeadOfSortedClass(s: seq<AIModel>)
    requires |s| > 0
    ensures |WithPriority(s, s[0].priority)| > 0 && WithPriority(s, s[0].priority)[0] == s[0]
  {
  }

  /**
   * The head of a non-empty priority class is the first model of that priority;
   * every earlier model has a different priority.
   */
  lemma {:induction false} FirstOfClass(s: seq<AIModel>, p: int) returns (i: nat)
    requires |WithPriority(s, p)| > 0
    ensures i < |s| && s[i] == WithPriority(s, p)[0]
    ensures forall j :: 0 <= j < i ==> s[j].priority != p
  {
    if s[0].priority == p {
      i := 0;
    } else {
      var k := FirstOfClass(s[1..], p);
      i := k + 1;
    }
  }

  /** The streaming model is the head of the failover order. */
  lemma BestModelHeadsCandidates(config: AISystemConfig)
    ensures GetBestModel(config) == Candidates(config)[0]
  {
  }

  /** Selection ignores the global switch, so streaming still picks a model when the system is disabled. */
  lemma BestModelIgnoresGlobalSwitch(config: AISystemConfig, on: bool)
    ensures GetBestModel(config.(globalEnabled := on)) == GetBestModel(config)
  {
  }
}

=== FILE: streaming.dfy ===
/**
 * The streaming path of the orchestrator: a single call to the best model (no
 * failover) whose answer is read as Server-Sent Events lines (section 9.2 of
 * the WHATWG HTML Living Standard, in the simplified reading of the source:
 * only `data: ` lines count).
 */
module Streaming {
  import opened Basics
  import opened Text
  import opened Json
  import opened Wire
  import opened Selection

  /** What the streaming `fetch` produced: it threw, or a status and (maybe) a body read as decoded text chunks. */
  datatype StreamReply =
    | StreamThrew(message: string)
    | StreamReplied(status: int, body: Option<seq<string>>)

  /** Why a stream produced no text. */
  datatype StreamFailure = FetchThrew(message: string) | StreamError | NoBody

  function FailureMessage(f: StreamFailure): string {
    match f
    case FetchThrew(m) => m
    case StreamError => "Stream Error"
    case NoBody => "No body"
  }

  /** The body of the streaming request: no temperature and no per-model key. */
  function StreamRequest(model: AIModel, messages: seq<ChatMessage>): (req: ChatRequest)
    ensures req.model == Some(model.id) && req.provider == Some(ToUpper(model.provider))
    ensures req.messages == messages && req.stream == Some(true)
    ensures req.apiKey.None? && req.temperature.None? && req.maxTokens.None?
  {
    ChatRequest(messages, Some(model.id), Some(ToUpper(model.provider)), None, None, None, Some(true))
  }

  /**
   * The lines the loop sees: each decoded chunk is split on `\n` on its own,
   * so a line is never joined across a chunk boundary.
   */
  function ChunkLines(chunks: seq<string>): (lines: seq<string>)
    ensures |lines| >= |chunks|
    ensures forall i :: 0 <= i < |lines| ==> '\n' !in lines[i]
  {
    if |chunks| == 0 then [] else Split(chunks[0], '\n') + ChunkLines(chunks[1..])
  }

  /** The lines of one chunk are its `split('\n')` pieces. */
  lemma ChunkLinesOne(c: string)
    ensures ChunkLines([c]) == Split(c, '\n')
  {
    assert [c][1..] == [];
  }

  /** Chunks are split one after another: the lines of a concatenation are those of each part, in turn. */
  lemma {:induction false} ChunkLinesAppend(a: seq<string>, b: seq<string>)
    ensures ChunkLines(a + b) == ChunkLines(a) + ChunkLines(b)
  {
    if |a| > 0 {
      assert (a + b)[0] == a[0];
      assert (a + b)[1..] == a[1..] + b;
      ChunkLinesAppend(a[1..], b);
    } else {
      assert a + b == b;
    }
  }

  /** A chunk carrying whole lines yields exactly those lines. */
  lemma OneChunkLines(lines: seq<string>)
    requires |lines| >= 1
    requires forall i :: 0 <= i < |lines| ==> '\n' !in lines[i]
    ensures ChunkLines([Join(lines, '\n')]) == lines
  {
    SplitJoin(lines, '\n');
    assert ChunkLines([Join(lines, '\n')]) == Split(Join(lines, '\n'), '\n') + ChunkLines([]);
  }

  /** A line cut by a chunk boundary reaches the loop as two separate lines. */
  lemma ChunkBoundaryCutsLine(a: string, b: string)
    requires '\n' !in a && '\n' !in b
    ensures ChunkLines([a, b]) == [a, b]
  {
    SplitPiece(a, '\n');
    SplitPiece(b, '\n');
    assert [a, b][1..] == [b];
    assert ChunkLines([b]) == Split(b, '\n') + ChunkLines([]);
  }

  /** What one line contributes. */
  datatype LineEvent = Ignore | Done | Append(delta: string)

  const DataPrefix := "data: "

  /** The delta text path of an OpenAI-compatible stream chunk: `choices[0].delta.content`. */
  const DeltaPath: seq<Step> := [First, Key("delta"), Key("content")]

  /**
   * Classifies one line. Lines without the `data: ` prefix are ignored; a
   * trimmed `[DONE]` payload ends the stream; a payload that fails to parse or
   * has no truthy delta is ignored; otherwise its delta is appended. `parse`
   * is `JSON.parse` and `show` is JavaScript's string conversion of a non-string
   * delta.
   */
  function Classify(line: string, parse: string -> Result<Json, string>, show: Json -> string): (e: LineEvent)
    ensures !StartsWith(line, DataPrefix) ==> e == Ignore
    ensures e == Done <==> StartsWith(line, DataPrefix) && Trim(line[|DataPrefix|..]) == "[DONE]"
    ensures e.Append? ==> StartsWith(line, DataPrefix) && parse(line[|DataPrefix|..]).Ok?
    ensures e.Append? ==>
      var found := Lookup(Some(parse(line[|DataPrefix|..]).value), [Key("choices")] + DeltaPath);
      found.Some? && Truthy(found.value) && (found.value.JStr? ==> e.delta == found.value.s && e.delta != "")
    ensures StartsWith(line, DataPrefix) && Trim(line[|DataPrefix|..]) != "[DONE]" && parse(line[|DataPrefix|..]).Err? ==>
      e == Ignore
    ensures StartsWith(line, DataPrefix) && Trim(line[|DataPrefix|..]) != "[DONE]" && parse(line[|DataPrefix|..]).Ok? ==>
      var json := parse(line[|DataPrefix|..]).value;
      var found := Lookup(Some(json), [Key("choices")] + DeltaPath);
      json != JNull && found.Some? && Truthy(found.value) ==>
        e == Append(if found.value.JStr? then found.value.s else show(found.value))
  {
    if !StartsWith(line, DataPrefix) then Ignore
    else
      var payload := line[|DataPrefix|..];
      if Trim(payload) == "[DONE]" then Done
      else
        match parse(payload)
        case Err(_) => Ignore
        case Ok(json) =>
          match ExtractOrEmpty(json, "choices", DeltaPath)
          case Err(_) => Ignore
          case Ok(content) =>
            if !Truthy(content) then Ignore
            else if content.JStr? then Append(content.s)
            else Append(show(content))
  }

  /** The deltas a stream contributes before its first `[DONE]` line. */
  function Deltas(events: seq<LineEvent>): seq<string> {
    if |events| == 0 then []
    else
      match events[0]
      case Done => []
      case Ignore => Deltas(events[1..])
      case Append(d) => [d] + Deltas(events[1..])
  }

  /** The events of a sequence of lines. */
  function Events(lines: seq<string>, parse: string -> Result<Json, string>, show: Json -> string): (es: seq<LineEvent>)
    ensures |es| == |lines|
    ensures forall i :: 0 <= i < |lines| ==> es[i] == Classify(lines[i], parse, show)
  {
    if |lines| == 0 then [] else [Classify(lines[0], parse, show)] + Events(lines[1..], parse, show)
  }

  /** All deltas glued together. */
  function Concat(ds: seq<string>): string {
    if |ds| == 0 then "" else ds[0] + Concat(ds[1..])
  }

  /** The texts passed to `onChunk`: the running total after each delta, starting from `base`. */
  function RunningTotals(ds: seq<string>, base: string): (ts: seq<string>)
    ensures |ts| == |ds|
  {
    if |ds| == 0 then [] else [base + ds[0]] + RunningTotals(ds[1..], base + ds[0])
  }

  /**
   * The running totals only grow: each extends `base`, each extends the one
   * before it by exactly its delta, and the last one is the whole text.
   */
  lemma {:induction false} RunningTotalsGrow(ds: seq<string>, base: string)
    ensures var ts := RunningTotals(ds, base);
      && (forall k :: 0 <= k < |ts| ==> base <= ts[k] && ts[k] <= base + Concat(ds))
      && (|ts| > 0 ==> ts[0] == base + ds[0])
      && (forall k :: 0 < k < |ts| ==> ts[k] == ts[k - 1] + ds[k])
      && (|ts| > 0 ==> ts[|ts| - 1] == base + Concat(ds))
  {
    if |ds| > 0 {
      var ts := RunningTotals(ds, base);
      var b := base + ds[0];
      RunningTotalsGrow(ds[1..], b);
      var rest := RunningTotals(ds[1..], b);
      assert ts == [b] + rest;
      assert base + Concat(ds) == b + Concat(ds[1..]);
      forall k | 0 <= k < |ts| ensures base <= ts[k] {
        if k > 0 {
          assert rest[k - 1][..|b|] == b;
          assert ts[k][..|base|] == b[..|base|];
        }
      }
      forall k | 0 < k < |ts| ensures ts[k] == ts[k - 1] + ds[k] {
        assert ds[1..][k - 1] == ds[k];
      }
    }
  }

  /**
   * The line loop of `callAIStream`: appends each delta to `acc` and reports the
   * running total to `onChunk` (recorded in `reported`), returning at the first
   * `[DONE]` or at the end of the lines.
   */
  method ReadLines(lines: seq<string>, parse: string -> Result<Json, string>, show: Json -> string)
    returns (acc: string, reported: seq<string>)
    ensures acc == Concat(Deltas(Events(lines, parse, show)))
    ensures reported == RunningTotals(Deltas(Events(lines, parse, show)), "")
  {
    ghost var es := Events(lines, parse, show);
    ghost var all := Deltas(es);
    acc := "";
    reported := [];
    var i := 0;
    while i < |lines|
      invariant 0 <= i <= |lines|
      invariant Concat(all) == acc + Concat(Deltas(es[i..]))
      invariant RunningTotals(all, "") == reported + RunningTotals(Deltas(es[i..]), acc)
    {
      var e := Classify(lines[i], parse, show);
      assert e == es[i];
      DeltasStep(es, i);
      match e {
        case Done =>
          return;
        case Ignore =>
        case Append(d) =>
          ConsDelta(d, Deltas(es[i + 1..]), acc);
          acc := acc + d;
          reported := reported + [acc];
      }
      i := i + 1;
    }
    assert es[i..] == [];
  }

  /** One step of `Deltas` from position `i`. */
  lemma DeltasStep(es: seq<LineEvent>, i: int)
    requires 0 <= i < |es|
    ensures es[i].Done? ==> Deltas(es[i..]) == []
    ensures es[i].Ignore? ==> Deltas(es[i..]) == Deltas(es[i + 1..])
    ensures es[i].Append? ==> Deltas(es[i..]) == [es[i].delta] + Deltas(es[i + 1..])
  {
  }

  /** Unfolding `Concat` and `RunningTotals` over a leading delta. */
  lemma ConsDelta(d: string, ds: seq<string>, base: string)
    ensures base + Concat([d] + ds) == (base + d) + Concat(ds)
    ensures RunningTotals([d] + ds, base) == [base + d] + RunningTotals(ds, base + d)
  {
  }

  /** The outcome of `callAIStream`: the model chosen, the request sent, the final text or failure, and every `onChunk` call. */
  datatype StreamRun = StreamRun(model: AIModel, request: ChatRequest, result: Result<string, StreamFailure>, reported: seq<string>)

  /**
   * What streaming from `model` promises: the request is the streaming request
   * for it; a throw, a non-OK status ("Stream Error") or a missing body ("No
   * body") yields no text and no reports; otherwise the text is the
   * concatenated deltas before `[DONE]` and `onChunk` saw their running totals,
   * the last of which is the text.
   */
  ghost predicate StreamedFrom(run: StreamRun, model: AIModel, messages: seq<ChatMessage>, fetch: ChatRequest -> StreamReply,
                               parse: string -> Result<Json, string>, show: Json -> string)
  {
    var reply := fetch(run.request);
    && run.model == model
    && run.request == StreamRequest(model, messages)
    && (reply.StreamThrew? ==> run.result == Err(FetchThrew(reply.message)) && run.reported == [])
    && (reply.StreamReplied? && !(200 <= reply.status <= 299) ==> run.result == Err(StreamError) && run.reported == [])
    && (reply.StreamReplied? && 200 <= reply.status <= 299 && reply.body.None? ==>
          run.result == Err(NoBody) && run.reported == [])
    && (reply.StreamReplied? && 200 <= reply.status <= 299 && reply.body.Some? ==> run.result.Ok?)
    && (run.result.Ok? ==>
          && reply.StreamReplied? && reply.body.Some?
          && var ds := Deltas(Events(ChunkLines(reply.body.value), parse, show));
             && run.result.value == Concat(ds)
             && run.reported == RunningTotals(ds, "")
             && (|run.reported| > 0 ==> run.reported[|run.reported| - 1] == run.result.value)
             && (|run.reported| == 0 ==> run.result.value == ""))
  }

  /**
   * The errors a failed stream throws: the `fetch` exception itself, "Stream
   * Error" for a non-OK status and "No body" for a missing body.
   */
  lemma StreamFailureMessages(run: StreamRun, model: AIModel, messages: seq<ChatMessage>,
                              fetch: ChatRequest -> StreamReply, parse: string -> Result<Json, string>,
                              show: Json -> string)
    requires StreamedFrom(run, model, messages, fetch, parse, show)
    ensures var reply := fetch(run.request);
      && (reply.StreamThrew? ==> FailureMessage(run.result.error) == reply.message)
      && (reply.StreamReplied? && !(200 <= reply.status <= 299) ==> FailureMessage(run.result.error) == "Stream Error")
      && (reply.StreamReplied? && 200 <= reply.status <= 299 && reply.body.None? ==>
            FailureMessage(run.result.error) == "No body")
  {
  }

  /** One streaming call to a given model, with no failover. */
  method StreamFrom(model: AIModel, messages: seq<ChatMessage>, fetch: ChatRequest -> StreamReply,
                    parse: string -> Result<Json, string>, show: Json -> string) returns (run: StreamRun)
    ensures StreamedFrom(run, model, messages, fetch, parse, show)
  {
    var request := StreamRequest(model, messages);
    var reply := fetch(request);
    match reply
    case StreamThrew(message) =>
      run := StreamRun(model, request, Err(FetchThrew(message)), []);
    case StreamReplied(status, body) =>
      if !(200 <= status <= 299) {
        run := StreamRun(model, request, Err(StreamError), []);
      } else if body.None? {
        run := StreamRun(model, request, Err(NoBody), []);
      } else {
        var lines := ChunkLines(body.value);
        var acc, reported := ReadLines(lines, parse, show);
        var ds := Deltas(Events(lines, parse, show));
        RunningTotalsGrow(ds, "");
        if |reported| == 0 {
          EmptyDeltas(ds);
        }
        run := StreamRun(model, request, Ok(acc), reported);
        assert fetch(run.request) == StreamReplied(status, body);
      }
  }

  /**
   * `callAIStream`: streams from the best model; the global switch is not
   * checked and a failed start does not move on to another model.
   */
  method CallAIStream(config: AISystemConfig, messages: seq<ChatMessage>, fetch: ChatRequest -> StreamReply,
                      parse: string -> Result<Json, string>, show: Json -> string) returns (run: StreamRun)
    ensures run.model == GetBestModel(config)
    ensures StreamedFrom(run, run.model, messages, fetch, parse, show)
  {
    run := StreamFrom(GetBestModel(config), messages, fetch, parse, show);
  }

  /** No deltas, no text. */
  lemma EmptyDeltas(ds: seq<string>)
    requires |RunningTotals(ds, "")| == 0
    ensures Concat(ds) == ""
  {
  }

  /** Lines after a `[DONE]` line never reach the text. */
  lemma DoneStopsTheStream(before: seq<string>, after: seq<string>, parse: string -> Result<Json, string>,
                           show: Json -> string)
    requires forall i :: 0 <= i < |before| ==> Classify(before[i], parse, show) != Done
    requires |after| > 0 && Classify(after[0], parse, show) == Done
    ensures Deltas(Events(before + after, parse, show)) == Deltas(Events(before, parse, show))
  {
    EventsAppend(before, after, parse, show);
    DoneStopsAt(Events(before, parse, show), Events(after, parse, show));
  }

  /** Classifying lines one by one commutes with joining line sequences. */
  lemma EventsAppend(a: seq<string>, b: seq<string>, parse: string -> Result<Json, string>, show: Json -> string)
    ensures Events(a + b, parse, show) == Events(a, parse, show) + Events(b, parse, show)
  {
  }

  /** A `Done` event hides everything after it. */
  lemma {:induction false} DoneStopsAt(before: seq<LineEvent>, rest: seq<LineEvent>)
    requires forall i :: 0 <= i < |before| ==> before[i] != Done
    requires |rest| > 0 && rest[0] == Done
    ensures Deltas(before + rest) == Deltas(before)
  {
    if |before| == 0 {
      assert before + rest == rest;
    } else {
      DoneStopsAt(before[1..], rest);
      assert (before + rest)[1..] == before[1..] + rest;
    }
  }
}

=== FILE: text.dfy ===
/** The few JavaScript string operations the gateway relies on. */
module Text {

  /** `s.startsWith(prefix)`. */
  predicate StartsWith(s: string, prefix: string) {
    |prefix| <= |s| && s[..|prefix|] == prefix
  }

  /** The characters `String.prototype.trim` removes: ECMAScript WhiteSpace and LineTerminator. */
  predicate IsJsSpace(c: char) {
    || c == '\t' || c == '\n' || c == '\U{000B}' || c == '\U{000C}' || c == '\r' || c == ' '
    || c == '\U{00A0}' || c == '\U{1680}' || ('\U{2000}' <= c <= '\U{200A}')
    || c == '\U{2028}' || c == '\U{2029}' || c == '\U{202F}' || c == '\U{205F}'
    || c == '\U{3000}' || c == '\U{FEFF}'
  }

  /** Drops leading white space: the result is the longest suffix that does not start with it. */
  function TrimStart(s: string): (r: string)
    ensures |r| <= |s| && r == s[|s| - |r|..]
    ensures forall i :: 0 <= i < |s| - |r| ==> IsJsSpace(s[i])
    ensures r == [] || !IsJsSpace(r[0])
  {
    if |s| > 0 && IsJsSpace(s[0]) then TrimStart(s[1..]) else s
  }

  /** Drops trailing white space: the result is the longest prefix that does not end with it. */
  function TrimEnd(s: string): (r: string)
    ensures |r| <= |s| && r == s[..|r|]
    ensures forall i :: |r| <= i < |s| ==> IsJsSpace(s[i])
    ensures r == [] || !IsJsSpace(r[|r| - 1])
  {
    if |s| > 0 && IsJsSpace(s[|s| - 1]) then TrimEnd(s[..|s| - 1]) else s
  }

  /** How many white-space characters `s` starts with. */
  function LeadingSpace(s: string): (n: nat)
    ensures n <= |s|
    ensures forall i :: 0 <= i < n ==> IsJsSpace(s[i])
    ensures n == |s| || !IsJsSpace(s[n])
  {
    if |s| > 0 && IsJsSpace(s[0]) then 1 + LeadingSpace(s[1..]) else 0
  }

  /**
   * `s.trim()`: the slice of `s` that starts after its leading white space and
   * stops before its trailing white space, so it neither starts nor ends with it.
   */
  function Trim(s: string): (r: string)
    ensures LeadingSpace(s) + |r| <= |s|
    ensures r == s[LeadingSpace(s)..LeadingSpace(s) + |r|]
    ensures forall i :: LeadingSpace(s) + |r| <= i < |s| ==> IsJsSpace(s[i])
    ensures r == [] || (!IsJsSpace(r[0]) && !IsJsSpace(r[|r| - 1]))
  {
    var t := TrimStart(s);
    assert |s| - |t| == LeadingSpace(s) by { TrimStartCount(s); }
    TrimEnd(t)
  }

  /** `TrimStart` removes exactly the leading white space. */
  lemma {:induction false} TrimStartCount(s: string)
    ensures |TrimStart(s)| == |s| - LeadingSpace(s)
  {
    if |s| > 0 && IsJsSpace(s[0]) {
      TrimStartCount(s[1..]);
    }
  }

  /** A string trims to nothing exactly when it is all white space. */
  lemma TrimEmpty(s: string)
    ensures Trim(s) == [] <==> forall i :: 0 <= i < |s| ==> IsJsSpace(s[i])
  {
  }

  /** Trimming twice is trimming once. */
  lemma TrimIdempotent(s: string)
    ensures Trim(Trim(s)) == Trim(s)
  {
    var r := Trim(s);
    assert TrimStart(r) == r;
    assert TrimEnd(r) == r;
  }

  /** Trimming never introduces a character the string did not contain. */
  lemma TrimKeepsAbsent(s: string, c: char)
    requires c !in s
    ensures c !in Trim(s)
  {
  }

  /** The inverse of `Split`: the pieces glued back together with the separator. */
  function Join(parts: seq<string>, sep: char): string
    requires |parts| >= 1
  {
    if |parts| == 1 then parts[0] else parts[0] + [sep] + Join(parts[1..], sep)
  }

  /** `s.split(sep)` for a one-character separator: the pieces between separators, in order. */
  function Split(s: string, sep: char): (parts: seq<string>)
    ensures |parts| >= 1
    ensures forall i :: 0 <= i < |parts| ==> sep !in parts[i]
    ensures Join(parts, sep) == s
  {
    if |s| == 0 then [""]
    else
      var rest := Split(s[1..], sep);
      if s[0] == sep then [""] + rest
      else
        var parts := [[s[0]] + rest[0]] + rest[1..];
        assert parts[1..] == rest[1..];
        parts
  }

  /** Splitting a joined list of separator-free pieces gives the pieces back. */
  lemma {:induction false} SplitJoin(parts: seq<string>, sep: char)
    requires |parts| >= 1
    requires forall i :: 0 <= i < |parts| ==> sep !in parts[i]
    ensures Split(Join(parts, sep), sep) == parts
  {
    if |parts| == 1 {
      SplitPiece(parts[0], sep);
    } else {
      SplitJoin(parts[1..], sep);
      SplitPrefix(parts[0], Join(parts[1..], sep), sep);
      assert [parts[0]] + parts[1..] == parts;
    }
  }

  /** A string without the separator splits into itself. */
  lemma SplitPiece(p: string, sep: char)
    requires sep !in p
    ensures Split(p, sep) == [p]
  {
  }

  /** A separator-free piece followed by the separator becomes its own leading piece. */
  lemma {:induction false} SplitPrefix(p: string, tail: string, sep: char)
    requires sep !in p
    ensures Split(p + [sep] + tail, sep) == [p] + Split(tail, sep)
  {
    var s := p + [sep] + tail;
    if |p| == 0 {
      assert s[1..] == tail;
    } else {
      assert s[1..] == p[1..] + [sep] + tail;
      SplitPrefix(p[1..], tail, sep);
      assert [p[0]] + p[1..] == p;
    }
  }

  /** The upper-case form of an ASCII lower-case letter; any other character is kept. */
  function UpperChar(c: char): char {
    if 'a' <= c <= 'z' then (c as int - 32) as char else c
  }

  /** `s.toUpperCase()` restricted to ASCII letters. */
  function ToUpper(s: string): (r: string)
    ensures |r| == |s|
    ensures forall i :: 0 <= i < |s| ==> !('a' <= r[i] <= 'z')
    ensures forall i :: 0 <= i < |s| && !('a' <= s[i] <= 'z') ==> r[i] == s[i]
    ensures forall i :: 0 <= i < |s| && 'a' <= s[i] <= 'z' ==> r[i] as int == s[i] as int - 32
  {
    if |s| == 0 then "" else [UpperChar(s[0])] + ToUpper(s[1..])
  }

  /** A tag without lower-case ASCII letters is its own upper-case form. */
  lemma ToUpperKeepsUpper(s: string)
    requires forall i :: 0 <= i < |s| ==> !('a' <= s[i] <= 'z')
    ensures ToUpper(s) == s
  {
  }

  /** Upper-casing an already upper-cased tag changes nothing. */
  lemma ToUpperIdempotent(s: string)
    ensures ToUpper(ToUpper(s)) == ToUpper(s)
  {
  }
}

=== FILE: wire.dfy ===
/**
 * The wire translator of the gateway: a canonical chat request becomes one
 * provider's endpoint, headers and payload, and the provider's JSON answer is
 * brought back to the canonical `choices[0].message.content` shape.
 */
module Wire {
  import opened Basics
  import opened Json
  import opened Providers

  /** One chat turn; the role is free text ("system", "user", "assistant", ...). */
  datatype ChatMessage = ChatMessage(role: string, content: string)

  /**
   * The canonical request body: `{messages, model, provider, apiKey, temperature,
   * max_tokens, stream}`. Absent JSON fields are `None`.
   */
  datatype ChatRequest = ChatRequest(
    messages: seq<ChatMessage>,
    model: Option<string>,
    provider: Option<string>,
    apiKey: Option<string>,
    temperature: Option<real>,
    maxTokens: Option<int>,
    stream: Option<bool>)

  /** One entry of Gemini's `contents`: `{role, parts: [{text}]}`. */
  datatype GeminiContent = GeminiContent(role: string, text: string)

  /** The three payload shapes the gateway sends. */
  datatype Payload =
    | OpenAICompatible(model: string, messages: seq<ChatMessage>, temperature: real, maxTokens: int, stream: bool)
    | AnthropicMessages(model: string, messages: seq<ChatMessage>, maxTokens: int, temperature: real,
                        stream: bool, system: Option<string>)
    | GeminiGenerate(contents: seq<GeminiContent>, temperature: real, maxOutputTokens: int,
                     systemInstruction: Option<string>)

  /** Everything the upstream `fetch` is given: URL, headers and JSON payload (method is always POST). */
  datatype WireRequest = WireRequest(endpoint: string, headers: map<string, string>, payload: Payload)

  const DefaultModel := "llama3-8b-8192"
  const DefaultAnthropicModel := "claude-3-opus-20240229"
  const DefaultTemperature: real := 0.7
  const DefaultMaxTokens := 4096
  const DefaultAnthropicMaxTokens := 1024
  const AnthropicVersion := "2023-06-01"

  /** `temperature || 0.7`: an absent or zero temperature becomes the default. */
  function TemperatureOr(t: Option<real>): (r: real)
    ensures t.Some? && t.value != 0.0 ==> r == t.value
    ensures t.None? || t.value == 0.0 ==> r == DefaultTemperature
  {
    if t.Some? && t.value != 0.0 then t.value else DefaultTemperature
  }

  /** `max_tokens || fallback`: an absent or zero limit becomes `fallback`. */
  function MaxTokensOr(n: Option<int>, fallback: int): (r: int)
    ensures n.Some? && n.value != 0 ==> r == n.value
    ensures n.None? || n.value == 0 ==> r == fallback
  {
    if n.Some? && n.value != 0 then n.value else fallback
  }

  /** `!!stream`. */
  function StreamFlag(s: Option<bool>): bool {
    s == Some(true)
  }

  predicate IsSystem(m: ChatMessage) {
    m.role == "system"
  }

  /** The messages that are not system messages, in their original order. */
  function NonSystem(ms: seq<ChatMessage>): (r: seq<ChatMessage>)
    ensures forall i :: 0 <= i < |r| ==> !IsSystem(r[i])
    ensures forall m :: m in r <==> m in ms && !IsSystem(m)
    ensures |r| <= |ms|
  {
    if |ms| == 0 then []
    else
      assert forall m :: m in ms <==> m == ms[0] || m in ms[1..];
      if IsSystem(ms[0]) then NonSystem(ms[1..]) else [ms[0]] + NonSystem(ms[1..])
  }

  /** Filtering keeps order: the survivors of a concatenation are the survivors of each part, in turn. */
  lemma {:induction false} NonSystemAppend(a: seq<ChatMessage>, b: seq<ChatMessage>)
    ensures NonSystem(a + b) == NonSystem(a) + NonSystem(b)
  {
    if |a| > 0 {
      assert (a + b)[1..] == a[1..] + b;
      NonSystemAppend(a[1..], b);
    } else {
      assert a + b == b;
    }
  }

  /** A single message survives exactly when it is not a system message. */
  lemma NonSystemOne(m: ChatMessage)
    ensures NonSystem([m]) == if IsSystem(m) then [] else [m]
  {
  }

  /** The content of the last system message, searching from the end. */
  function LastSystemContent(ms: seq<ChatMessage>): (r: Option<string>)
    ensures r.None? <==> forall i :: 0 <= i < |ms| ==> !IsSystem(ms[i])
    ensures r.Some? ==> exists i ::
      && 0 <= i < |ms| && IsSystem(ms[i]) && ms[i].content == r.value
      && forall j :: i < j < |ms| ==> !IsSystem(ms[j])
  {
    if |ms| == 0 then None
    else if IsSystem(ms[|ms| - 1]) then Some(ms[|ms| - 1].content)
    else LastSystemContent(ms[..|ms| - 1])
  }

  /** The content of the first system message (`messages.find(...)`), searching from the start. */
  function FirstSystemContent(ms: seq<ChatMessage>): (r: Option<string>)
    ensures r.None? <==> forall i :: 0 <= i < |ms| ==> !IsSystem(ms[i])
    ensures r.Some? ==> exists i ::
      && 0 <= i < |ms| && IsSystem(ms[i]) && ms[i].content == r.value
      && forall j :: 0 <= j < i ==> !IsSystem(ms[j])
  {
    if |ms| == 0 then None
    else if IsSystem(ms[0]) then Some(ms[0].content)
    else
      var r := FirstSystemContent(ms[1..]);
      assert forall i :: 1 <= i < |ms| ==> ms[i] == ms[1..][i - 1];
      r
  }

  /** Looking for the last system message in `[m] + rest` looks in `rest` first. */
  lemma {:induction false} LastSystemCons(m: ChatMessage, rest: seq<ChatMessage>)
    ensures LastSystemContent([m] + rest) ==
      if LastSystemContent(rest).Some? then LastSystemContent(rest)
      else if IsSystem(m) then Some(m.content)
      else None
  {
    var ms := [m] + rest;
    if |rest| > 0 {
      assert ms[..|ms| - 1] == [m] + rest[..|rest| - 1];
      assert ms[|ms| - 1] == rest[|rest| - 1];
      if !IsSystem(rest[|rest| - 1]) {
        LastSystemCons(m, rest[..|rest| - 1]);
      }
    } else {
      assert ms[..|ms| - 1] == [];
    }
  }

  /**
   * The Anthropic `messages.filter(...)` with its side effect: walks the messages
   * from the left, drops each system message and remembers its content in
   * `prompt`, so the last one seen wins.
   */
  function SplitSystem(ms: seq<ChatMessage>, prompt: Option<string>): (r: (seq<ChatMessage>, Option<string>))
    ensures r.0 == NonSystem(ms)
    ensures r.1 == if LastSystemContent(ms).Some? then LastSystemContent(ms) else prompt
  {
    if |ms| == 0 then ([], prompt)
    else
      LastSystemCons(ms[0], ms[1..]);
      assert [ms[0]] + ms[1..] == ms;
      if IsSystem(ms[0]) then SplitSystem(ms[1..], Some(ms[0].content))
      else
        var rest := SplitSystem(ms[1..], prompt);
        ([ms[0]] + rest.0, rest.1)
  }

  /** Gemini's role mapping: "user" stays, every other role becomes "model". */
  function GeminiRole(role: string): string {
    if role == "user" then "user" else "model"
  }

  /** `messages.map(m => ({role: ..., parts: [{text: m.content}]}))`. */
  function ToGeminiContents(ms: seq<ChatMessage>): (r: seq<GeminiContent>)
    ensures |r| == |ms|
    ensures forall i :: 0 <= i < |ms| ==> r[i] == GeminiContent(GeminiRole(ms[i].role), ms[i].content)
  {
    if |ms| == 0 then [] else [GeminiContent(GeminiRole(ms[0].role), ms[0].content)] + ToGeminiContents(ms[1..])
  }

  /** `.filter(c => c.role !== 'system')` on the mapped contents. */
  function DropSystemContents(cs: seq<GeminiContent>): (r: seq<GeminiContent>)
    ensures forall i :: 0 <= i < |r| ==> r[i].role != "system"
    ensures forall c :: c in r <==> c in cs && c.role != "system"
    ensures |r| <= |cs|
  {
    if |cs| == 0 then []
    else
      assert forall c :: c in cs <==> c == cs[0] || c in cs[1..];
      if cs[0].role == "system" then DropSystemContents(cs[1..])
      else [cs[0]] + DropSystemContents(cs[1..])
  }

  /** The filter keeps order: the survivors of a concatenation are the survivors of each part, in turn. */
  lemma {:induction false} DropSystemContentsAppend(a: seq<GeminiContent>, b: seq<GeminiContent>)
    ensures DropSystemContents(a + b) == DropSystemContents(a) + DropSystemContents(b)
  {
    if |a| > 0 {
      assert (a + b)[1..] == a[1..] + b;
      DropSystemContentsAppend(a[1..], b);
    } else {
      assert a + b == b;
    }
  }

  /**
   * Gemini `contents` as written: the system filter runs after the role mapping,
   * so it never removes anything; a system message travels with role "model".
   */
  function GeminiContents(ms: seq<ChatMessage>): (r: seq<GeminiContent>)
    ensures |r| == |ms|
    ensures forall i :: 0 <= i < |ms| ==> r[i].text == ms[i].content
    ensures forall i :: 0 <= i < |ms| ==> r[i].role == if ms[i].role == "user" then "user" else "model"
  {
    var mapped := ToGeminiContents(ms);
    NoSystemRoleSurvivesMapping(mapped);
    DropSystemContents(mapped)
  }

  /** Contents without a "system" role pass the filter unchanged. */
  lemma {:induction false} NoSystemRoleSurvivesMapping(cs: seq<GeminiContent>)
    requires forall i :: 0 <= i < |cs| ==> cs[i].role != "system"
    ensures DropSystemContents(cs) == cs
  {
    if |cs| > 0 {
      NoSystemRoleSurvivesMapping(cs[1..]);
      assert [cs[0]] + cs[1..] == cs;
    }
  }

  /** The request headers: JSON content type, provider extras, and bearer auth for the standard providers. */
  function Headers(tag: string, key: Option<string>): (h: map<string, string>)
    ensures "Content-Type" in h && h["Content-Type"] == "application/json"
    ensures "Authorization" in h <==> tag != "GEMINI" && tag != "ANTHROPIC" && Present(key)
    ensures "Authorization" in h ==> h["Authorization"] == "Bearer " + key.value
    ensures ("HTTP-Referer" in h || "X-Title" in h) ==> tag == "OPENROUTER"
    ensures ("x-api-key" in h || "anthropic-version" in h) ==> tag == "ANTHROPIC"
    ensures tag == "ANTHROPIC" ==>
      && "x-api-key" in h && h["x-api-key"] == Interpolate(key)
      && "anthropic-version" in h && h["anthropic-version"] == AnthropicVersion
    ensures tag == "OPENROUTER" ==>
      && "HTTP-Referer" in h && h["HTTP-Referer"] == "https://your-site.com"
      && "X-Title" in h && h["X-Title"] == "App"
    ensures h.Keys <= {"Content-Type", "Authorization", "HTTP-Referer", "X-Title", "x-api-key", "anthropic-version"}
  {
    var base := map["Content-Type" := "application/json"];
    var extra :=
      if tag == "OPENROUTER" then base["HTTP-Referer" := "https://your-site.com"]["X-Title" := "App"]
      else if tag == "ANTHROPIC" then base["x-api-key" := Interpolate(key)]["anthropic-version" := AnthropicVersion]
      else base;
    if tag != "GEMINI" && tag != "ANTHROPIC" && Present(key) then extra["Authorization" := "Bearer " + key.value]
    else extra
  }

  /** The payload shape for a provider. */
  function Shape(p: Provider, req: ChatRequest): (r: Payload)
    ensures p == Anthropic <==> r.AnthropicMessages?
    ensures p == Gemini <==> r.GeminiGenerate?
    ensures r.AnthropicMessages? ==> forall i :: 0 <= i < |r.messages| ==> !IsSystem(r.messages[i])
    ensures r.OpenAICompatible? ==> r.messages == req.messages
    ensures r.GeminiGenerate? ==> |r.contents| == |req.messages|
  {
    match p
    case Anthropic =>
      var (clean, prompt) := SplitSystem(req.messages, None);
      AnthropicMessages(OrElse(req.model, DefaultAnthropicModel), clean,
                        MaxTokensOr(req.maxTokens, DefaultAnthropicMaxTokens),
                        TemperatureOr(req.temperature), StreamFlag(req.stream),
                        if Present(prompt) then prompt else None)
    case Gemini =>
      GeminiGenerate(GeminiContents(req.messages), TemperatureOr(req.temperature),
                     MaxTokensOr(req.maxTokens, DefaultMaxTokens), FirstSystemContent(req.messages))
    case _ =>
      OpenAICompatible(OrElse(req.model, DefaultModel), req.messages, TemperatureOr(req.temperature),
                       MaxTokensOr(req.maxTokens, DefaultMaxTokens), StreamFlag(req.stream))
  }

  /** The upstream call for an upper-cased provider tag and a resolved key. */
  function ToWire(tag: string, req: ChatRequest, key: Option<string>): (w: WireRequest)
    ensures w.headers == Headers(tag, key)
    ensures Parse(tag) !in {Anthropic, Gemini} ==> w.payload.OpenAICompatible?
    ensures Parse(tag) == Anthropic <==> w.payload.AnthropicMessages?
    ensures Parse(tag) == Gemini <==> w.payload.GeminiGenerate?
    ensures StaticEndpoint(Parse(tag)).Some? ==> w.endpoint == StaticEndpoint(Parse(tag)).value
    ensures tag !in KnownTags ==> w.endpoint == GroqEndpoint
  {
    var p := Parse(tag);
    WireRequest(Endpoint(p, req.model, key), Headers(tag, key), Shape(p, req))
  }

  /** The canonical response `{choices: [{message: {role: "assistant", content}}]}`. */
  function Canonical(content: Json): Json {
    JObj([("choices", JArr([JObj([("message", JObj([("role", JStr("assistant")), ("content", content)]))])]))])
  }

  /** The path the orchestrator reads the answer from: `choices[0].message.content`. */
  const ContentPath: seq<Step> := [First, Key("message"), Key("content")]

  /**
   * Response normalisation for a successful non-streaming call: Gemini and
   * Anthropic answers are rewritten to the canonical shape, every other
   * provider's JSON is passed through. Reading a property of a `null` body
   * throws, which is the error case.
   */
  function Normalize(p: Provider, data: Json): (r: Result<Json, string>)
    ensures p !in {Gemini, Anthropic} ==> r == Ok(data)
    ensures r.Err? <==> p in {Gemini, Anthropic} && data == JNull
    ensures p == Gemini && r.Ok? ==>
      r.value == Canonical(OrEmpty(Lookup(Some(data), GeminiTextPath)))
    ensures p == Anthropic && r.Ok? ==>
      r.value == Canonical(OrEmpty(Lookup(Some(data), AnthropicTextPath)))
  {
    if p in {Gemini, Anthropic} then
      var path := if p == Gemini then GeminiTextPath else AnthropicTextPath;
      match ExtractOrEmpty(data, path[0].name, path[1..])
      case Err(e) => Err(e)
      case Ok(c) =>
        assert [path[0]] + path[1..] == path;
        Ok(Canonical(c))
    else Ok(data)
  }

  /** Where Gemini puts the answer: `candidates[0].content.parts[0].text`. */
  const GeminiTextPath: seq<Step> := [Key("candidates"), First, Key("content"), Key("parts"), First, Key("text")]

  /** Where Anthropic puts the answer: `content[0].text`. */
  const AnthropicTextPath: seq<Step> := [Key("content"), First, Key("text")]

  /**
   * Anthropic: no system message is sent in `messages`, the others keep their
   * order, the last system message becomes `system` when its content is not
   * empty, and the key goes in `x-api-key` rather than `Authorization`.
   */
  lemma AnthropicShape(req: ChatRequest, key: Option<string>)
    ensures var w := ToWire("ANTHROPIC", req, key);
      && w.endpoint == "https://api.anthropic.com/v1/messages"
      && w.payload.AnthropicMessages?
      && w.payload.messages == NonSystem(req.messages)
      && (forall i :: 0 <= i < |w.payload.messages| ==> w.payload.messages[i].role != "system")
      && w.payload.system == (if Present(LastSystemContent(req.messages)) then LastSystemContent(req.messages) else None)
      && w.payload.maxTokens == (if req.maxTokens.Some? && req.maxTokens.value != 0 then req.maxTokens.value else 1024)
      && w.payload.temperature == TemperatureOr(req.temperature)
      && w.payload.model == (if Present(req.model) then req.model.value else "claude-3-opus-20240229")
      && w.payload.stream == (req.stream == Some(true))
      && "Authorization" !in w.headers
      && w.headers["x-api-key"] == Interpolate(key)
      && w.headers["anthropic-version"] == "2023-06-01"
  {
  }

  /**
   * Gemini: the URL carries the model (default `gemini-1.5-flash`) and the key;
   * `contents` has one entry per message, "user" kept and every other role sent
   * as "model"; the first system message becomes `systemInstruction`; there is
   * no `Authorization` header.
   */
  lemma GeminiShape(req: ChatRequest, key: string)
    ensures var w := ToWire("GEMINI", req, Some(key));
      && w.endpoint == "https://generativelanguage.googleapis.com/v1beta/models/"
           + OrElse(req.model, "gemini-1.5-flash") + ":generateContent?key=" + key
      && w.payload.GeminiGenerate?
      && |w.payload.contents| == |req.messages|
      && (forall i :: 0 <= i < |req.messages| ==>
            && w.payload.contents[i].text == req.messages[i].content
            && w.payload.contents[i].role == (if req.messages[i].role == "user" then "user" else "model"))
      && w.payload.systemInstruction == FirstSystemContent(req.messages)
      && w.payload.temperature == TemperatureOr(req.temperature)
      && w.payload.maxOutputTokens == (if req.maxTokens.Some? && req.maxTokens.value != 0 then req.maxTokens.value else 4096)
      && "Authorization" !in w.headers
  {
  }

  /**
   * The Gemini system filter removes nothing: a system message is still sent,
   * in its original position, with role "model", and it also becomes the
   * system instruction when it is the first one.
   */
  lemma GeminiKeepsSystemMessages(req: ChatRequest, key: Option<string>, i: nat)
    requires i < |req.messages| && req.messages[i].role == "system"
    ensures var w := ToWire("GEMINI", req, key);
      && w.payload.GeminiGenerate?
      && w.payload.contents[i] == GeminiContent("model", req.messages[i].content)
      && w.payload.systemInstruction.Some?
  {
  }

  /**
   * Every tag other than ANTHROPIC and GEMINI, COHERE and unknown tags included,
   * gets the OpenAI-compatible payload with defaults `llama3-8b-8192`, 0.7 and
   * 4096, and the messages exactly as given.
   */
  lemma DefaultShape(tag: string, req: ChatRequest, key: Option<string>)
    requires tag != "ANTHROPIC" && tag != "GEMINI"
    ensures var w := ToWire(tag, req, key);
      && w.payload.OpenAICompatible?
      && w.payload.model == (if Present(req.model) then req.model.value else "llama3-8b-8192")
      && w.payload.messages == req.messages
      && w.payload.temperature == (if req.temperature.Some? && req.temperature.value != 0.0 then req.temperature.value else 0.7)
      && w.payload.maxTokens == (if req.maxTokens.Some? && req.maxTokens.value != 0 then req.maxTokens.value else 4096)
      && w.payload.stream == (req.stream == Some(true))
  {
  }

  /** Unrecognised tags, COHERE and "LOCAL (OLLAMA)" among them, are sent to Groq's endpoint. */
  lemma UnknownTagFallsBackToGroq(tag: string, req: ChatRequest, key: Option<string>)
    requires tag !in KnownTags
    ensures ToWire(tag, req, key).endpoint == "https://api.groq.com/openai/v1/chat/completions"
    ensures ToWire(tag, req, key).payload.OpenAICompatible?
  {
  }

  /** HuggingFace puts the raw model id (possibly `undefined`) in its URL path. */
  lemma HuggingFaceEndpoint(req: ChatRequest, key: Option<string>)
    ensures ToWire("HUGGINGFACE", req, key).endpoint ==
      "https://api-inference.huggingface.co/models/" + Interpolate(req.model) + "/v1/chat/completions"
  {
  }

  /**
   * Round trip with the orchestrator: reading `choices[0].message.content` from
   * a normalised Gemini or Anthropic answer gives back exactly the extracted
   * content, and `|| ""` leaves it unchanged.
   */
  lemma CanonicalContentRoundTrip(c: Json)
    requires Truthy(c) || c == JStr("")
    ensures Lookup(Some(Canonical(c)), [Key("choices")] + ContentPath) == Some(c)
    ensures OrEmpty(Lookup(Some(Canonical(c)), [Key("choices")] + ContentPath)) == c
  {
  }
}
